=== FILE: README.md ===
# Tile-world game server: a Dafny model of its core

The server generates a 2-D tile world and then serves it over WebSocket.
Generation uses cellular-automaton caves and ore deposits, random-width
biome bands, and a per-biome tile table. Each connected client sees the
world through a per-connection tracker of 50x50-tile chunks. Players join,
move, edit single tiles and leave, and the server broadcasts these events
to the other sessions. This project models that core in Dafny 4.11 and
proves what the code promises about it.

Modules, one per concern:

- `Grids`: optional values, integer pixel positions, rectangular grids
  stored `g[x][y]` like the server's `T[width, height]` arrays, clamping and
  single-cell replacement.
- `Automaton`: `RunAutomataStep`, the neighbour count with and without
  counting the border as alive, and repeated relaxation.
- `Biomes`: `GenerateBiomes`, the left-to-right cover of the columns by
  bands. The random draws are an input sequence.
- `Tiles`: the `Tile` record, the ore table and `GetBiomeTile`.
- `Terrain`: cave and ore maps, the per-cell rule of `GenerateWorld`, the
  whole generator, and `BiomeAtPos`. Perlin-noise samples are inputs.
- `Registry`: the player map and id counter, with `AddPlayer` and the
  removal on close.
- `Messages`: the outbound message records and their `type` tags, the spawn
  search, the roster and the world-data message.
- `Visibility`: the chunk tracker, i.e. `RecalculateChunks` and the chunk-grid
  sizing done at open.
- `Session`: the connection handlers `OnOpen`, `OnMessage`, `OnClose` and
  `UpdatePos`, plus the recipient filter of `Broadcast`.

Every send is a returned `Outgoing` value that names its recipients. The
shared server state is passed explicitly instead of through the
`GameServer.Instance` singleton.

Four behaviours of the code that are easy to misread, and that the model
follows:

- When several ore masks claim a cell, the ore with the highest index wins.
  The loop writes the cell for every claiming ore, so the last write stays
  (`TileGameSocket/World.cs:114-124`).
- `Tile.position` holds pixel coordinates: the tile coordinates times 40
  (`TileGameSocket/World.cs:20-21`).
- The `Ore` constructor takes the birth count first and the death count
  second (`TileGameSocket/World.cs:34-37`). The first two ores therefore
  relax with death limit 0 and birth limit 1.
- The cave map covers the full world height. Only its upper half is seeded,
  so the lower half starts closed, and all of it is relaxed with the border
  counted as alive (`TileGameSocket/World.cs:163-172`).

## Model

| member | source | states |
|---|---|---|
| Automaton.AliveNeighbours | TileGameSocket/World.cs:201-226 | the neighbour count of a cell is at most 8 |
| Automaton.CountSplit | TileGameSocket/World.cs:214-226 | the count equals the live in-bounds neighbours plus, exactly when `edgeIsNeighbor` holds, one for every out-of-bounds neighbour |
| Automaton.InteriorIgnoresEdgeFlag | TileGameSocket/World.cs:214-222 | for a cell at least one step from every border, the count is the same with or without the border counted |
| Automaton.CornerCountsFiveEdges | TileGameSocket/World.cs:202-222 | each of the four corner cells of a grid at least 2x2 has five out-of-bounds neighbours, so with the border counted it has at least five live neighbours |
| Automaton.Step | TileGameSocket/World.cs:190-236 | the result has the input's dimensions; a cell with fewer than `dLimit` live neighbours is dead; a cell with at least `dLimit` and at least `bLimit` is alive; otherwise the cell keeps its old state, so death overrides birth |
| Automaton.Relax | TileGameSocket/World.cs:171-172 | repeated passes keep the grid's dimensions |
| Biomes.BandStartGrowth | TileGameSocket/World.cs:145-147 | every band is at least 20 columns wide, so band starts grow by at least 20 per band |
| Biomes.GenerateBiomes | TileGameSocket/World.cs:137-154 | every column of `[0,width)` gets the id of the band covering it; the ids lie in `[0,4)`; the loop stops once the bands reach `width`, and no band drawn starts at or past `width` |
| Biomes.BandsCoverColumns | TileGameSocket/World.cs:142-151 | the bands cover their columns without gaps |
| Biomes.BandsDisjoint | TileGameSocket/World.cs:142-151 | no column lies in two bands |
| Biomes.ColumnHasUniqueBand | TileGameSocket/World.cs:142-151 | after banding, every column of `[0,width)` lies in exactly one band |
| Tiles.NewTile | TileGameSocket/World.cs:16-23 | the tile keeps its index and drop, and its position is the tile coordinates times 40, which maps back to the same cell |
| Tiles.GetBiomeTile | TileGameSocket/World.cs:244-285 | biomes 0 and 3 give the surface tile (0 or 6), the deep filler 7 with drop 3 below `heightMax+20`, and tile 1 otherwise; biomes 1 and 2 have only a surface and a subsurface tile; any other id gives tile 0 with drop 0; the tile sits at pixel position (40x, 40y) of its cell |
| Tiles.BiomesZeroAndThreeShareUnderground | TileGameSocket/World.cs:244-285 | biomes 0 and 3 differ only at the surface row |
| Tiles.SurfaceMaterialsDistinct | TileGameSocket/World.cs:244-285 | the four surface tiles are pairwise different, and no biome's surface tile is another biome's tile below the surface |
| Terrain.SeedCaves | TileGameSocket/World.cs:163-167 | the cave seed grid is world-sized, takes the draws in its upper `height/2` rows and is closed below |
| Terrain.CaveMap | TileGameSocket/World.cs:156-173 | the relaxed cave map keeps the world's dimensions |
| Terrain.OreMaps | TileGameSocket/World.cs:175-188 | there is one `width x height/2` map per ore, each relaxed once with that ore's limits and the border not counted |
| Terrain.BiomeIndex | TileGameSocket/World.cs:101-103 | the biome lookup column always lies in `[0,width)`: it is the unshifted sum when that is inside, column 0 when the sum falls left of the world, and the last column when it falls past the right edge |
| Terrain.LastClaim | TileGameSocket/World.cs:113-127 | it returns none exactly when no ore claims the cell; otherwise it returns a claiming index with no claiming index after it |
| Terrain.PlaceCell | TileGameSocket/World.cs:99-131 | a cell above `heightMax` is air; a carved lower-half cave cell is air; any other cell is solid, holding the highest-index claiming ore or else the biome tile; the tile's position maps back to the cell |
| Terrain.GenerateWorld | TileGameSocket/World.cs:71-132 | the world has the requested size; the height map is the surface rows; each biome cell reads the band table at the clamped, shifted column; every tile is the per-cell rule's, so cells above the surface are air; biome ids stay in `[0,4)` |
| Terrain.GenerateFromDraws | TileGameSocket/World.cs:71-132 | from band draws and seed grids: every cell's biome is the id of the drawn band covering its shifted column, and so in `[0,4)`; every cell follows the per-cell rule over the relaxed cave map and the relaxed ore maps; cells above the surface are air, and a cell at or below the surface is air exactly when the relaxed cave map carves it |
| Terrain.ClampedTile | TileGameSocket/World.cs:238-241 | the tile coordinate of a pixel coordinate is clamped into `[0,n)` and is the floor of `p/40` inside the world |
| Terrain.BiomeAtPos | TileGameSocket/World.cs:238-242 | inside the world it is the biome of the tile under the position; outside it is the biome of the cell reached by clamping each axis separately to the nearest edge, so the lookup never leaves the map |
| Registry.Empty | TileGameSocket/World.cs:51-52 | a fresh server has no players and counter 0 |
| Registry.AddPlayer | TileGameSocket/World.cs:287-293 | the id returned is the counter's value and was not in use; the registry gains exactly that key; the counter grows by one |
| Registry.RemovePlayer | TileGameSocket/Program.cs:72 | only the given id leaves the registry; the others keep their entries; the counter is untouched |
| Registry.SetPosition | TileGameSocket/Message.cs:68 | only the given player's stored position changes; the keys and the counter stay |
| Registry.Replay | TileGameSocket/World.cs:287-293 | any run of joins and leaves keeps every registered id below the counter |
| Registry.IssuedIdsIncrease | TileGameSocket/World.cs:287-293 | over any run of joins and leaves, the k-th join gets the counter's starting value plus k, the counter ends at its start plus the number of joins, and none of the ids handed out was in use |
| Messages.KindOfTag | TileGameSocket/Message.cs:9-119 | a recognised tag names a message kind whose tag it is |
| Messages.TagIdentifiesKind | TileGameSocket/Message.cs:9-119 | the six tags are distinct, so the tag alone identifies the message kind |
| Messages.NewBiomeMessage | TileGameSocket/Message.cs:14-18 | it is tagged "biome" and carries the biome id |
| Messages.NewChunkMessage | TileGameSocket/Message.cs:27-32 | it is tagged "chunk" and keeps the tile list's length, order and empty entries, plus the position |
| Messages.NewPlayerJoinedMessage | TileGameSocket/Message.cs:88-92 | it is tagged "player_joined" and carries the id |
| Messages.NewPlayerLeftMessage | TileGameSocket/Message.cs:100-104 | it is tagged "player_left" and carries the id |
| Messages.NewSetPlayerPositionMessage | TileGameSocket/Message.cs:113-118 | it is tagged "set_player_position" and carries the position and the id |
| Messages.SpawnRow | TileGameSocket/Message.cs:57-65 | the spawn row is the first row from the top holding a tile: every row above it is air, and it holds a tile whenever the column holds one; it is 0 when the column is all air |
| Messages.SpawnPosition | TileGameSocket/Message.cs:67 | the spawn pixel x is the column times 40, and the pixel y is 90 pixels above the row's top, `40*row - 90` |
| Messages.Roster | TileGameSocket/Message.cs:70-77 | one entry per registered player, no id twice, each entry carrying that player's position |
| Messages.NewWorldDataMessage | TileGameSocket/Message.cs:51-80 | it is tagged "world_data_"; it copies the height map and the size and echoes `localId`; the spawn is in column `width/2`, 90 pixels above the top of its first solid cell (row 0 when the column is all air); that spawn becomes the local player's stored position; the roster lists the updated registry |
| Visibility.ChunkCount | TileGameSocket/Program.cs:54-55 | the chunk count is the ceiling of `n/50`: enough chunks to cover `n` tiles, and one fewer would not |
| Visibility.Open | TileGameSocket/Program.cs:54-56 | a new tracker is `ceil(width/50) x ceil(height/50)` with nothing discovered |
| Visibility.ChunkOf | TileGameSocket/Program.cs:115 | the chunk index is the floor of the pixel position over 2000 per axis |
| Visibility.Block | TileGameSocket/Program.cs:117-128 | the candidate list has nine distinct chunks |
| Visibility.BlockIsNeighbourhood | TileGameSocket/Program.cs:117-128 | the candidates are exactly the chunks at most one step away on each axis |
| Visibility.RevealChunksFacts | TileGameSocket/Program.cs:131-139 | the scan reveals each in-range, undiscovered candidate once; the discovered set grows by exactly the revealed chunks; the tracker's size stays |
| Visibility.RevealIsFilter | TileGameSocket/Program.cs:131-139 | with distinct candidates, the revealed chunks are the in-range undiscovered candidates, in candidate order |
| Visibility.Span | TileGameSocket/Program.cs:142-147 | the clipped range of a chunk's 50 columns (or rows) lies within the world, and it is empty exactly when the chunk's range misses the world |
| Visibility.FootprintLength | TileGameSocket/Program.cs:142-151 | a clipped footprint holds one entry per cell of its rectangle |
| Visibility.FootprintIndex | TileGameSocket/Program.cs:142-151 | entry `i*height+j` is cell `(x0+i, y0+j)`: x outer, y inner, empty cells included |
| Visibility.GatherAppend | TileGameSocket/Program.cs:130-152 | the collected tiles of one more chunk are appended after the earlier chunks' tiles |
| Visibility.Recalculate | TileGameSocket/Program.cs:113-160 | the discovered set only grows, and gains exactly the in-range chunks of the 3x3 block; the revealed chunks are the fresh ones; the tiles are theirs in order; a message, with those tiles and the position, is sent exactly when the tiles are non-empty |
| Visibility.RecalculateIdempotent | TileGameSocket/Program.cs:136-139 | a second update from the same position reveals nothing, sends nothing and leaves the tracker unchanged |
| Visibility.MessageIffChunkRevealed | TileGameSocket/Program.cs:154-159 | in a tracker sized for the world, a chunk message is sent exactly when some chunk is revealed |
| Visibility.RevealedIffGrows | TileGameSocket/Program.cs:136-139 | an update reveals a chunk exactly when the discovered set grows |
| Visibility.RevealedOncePerChunk | TileGameSocket/Program.cs:131-139 | along any path of positions, no chunk is revealed twice; the revealed chunks are exactly the in-range chunks the path touches that were not yet discovered; the tracker gains exactly those |
| Visibility.RevealAlongIsRecalculate | TileGameSocket/Program.cs:113-139 | the path fold is successive `RecalculateChunks` calls: the first position's update gives the tracker the rest starts from and the chunks revealed first |
| Visibility.RecalculateChunks | TileGameSocket/Program.cs:113-160 | the loop version computes the same tracker, tiles and message as the functional description |
| Visibility.ScanChunks | TileGameSocket/Program.cs:131-152 | the candidate loop marks the chunks of the scan and collects their tiles in scan order |
| Visibility.CollectChunkTiles | TileGameSocket/Program.cs:140-151 | the nested loop collects the chunk's footprint clipped to the world |
| Grids.Clamp | TileGameSocket/World.cs:240-241 | the result lies in `[lo,hi]`, is `v` when `v` is inside and the nearer bound otherwise |
| Grids.SetCell | TileGameSocket/Program.cs:94 | only the addressed cell changes, and it holds the new value |
| Grids.SetCellUndo | TileGameSocket/Program.cs:94 | writing back the old value restores the grid |
| Grids.SetCellLastWins | TileGameSocket/Program.cs:94 | of two writes to one cell only the later is visible |
| Session.Broadcast | TileGameSocket/Program.cs:162-171 | every open session other than the sender receives, and no other session does; the sender never receives |
| Session.BroadcastAppend | TileGameSocket/Program.cs:164-170 | the filter keeps the session manager's order |
| Session.UpdatePos | TileGameSocket/Program.cs:99-111 | the tracker only grows, by the in-range block around the position; the chunk message, if any, comes first, then the biome message to the mover, then the position to the others; the biome is the one under the position; no world data is sent |
| Session.ChunkSentIffDiscoveryGrows | TileGameSocket/Program.cs:99-160 | with a tracker sized for the world, a move sends a chunk message exactly when it discovers a chunk |
| Session.RepeatedMoveSendsNoChunk | TileGameSocket/Program.cs:99-160 | moving to the same position again sends no chunk message and leaves the tracker unchanged |
| Session.WalkFollowsRevealAlong | TileGameSocket/Program.cs:99-139 | the tracker after a connection's successive `UpdatePos` calls is the one the path fold of `RecalculateChunks` computes |
| Session.WalkRevealsEachChunkOnce | TileGameSocket/Program.cs:99-139 | over a connection's successive `UpdatePos` calls, no chunk is revealed twice, and the tracker gains exactly the in-range chunks the moves touch that it had not yet discovered |
| Session.Welcome | TileGameSocket/Program.cs:51-58 | the new player gets the next id, which was not in use; the world-data message is tagged "world_data_", carries the height map and size, spawns the player at the first solid cell of the middle column (row 0 when the column is all air), registers it there, and lists every registered player once with its position |
| Session.OnOpen | TileGameSocket/Program.cs:49-67 | the world data goes first and only to the new player, with the tag, height map, size, spawn cell and full roster stated; then "player_joined" is broadcast; the last message broadcasts the spawn position to every other open session; the tracker is sized for the world and holds the spawn's block; the registry gains exactly the new id |
| Session.ApplyTileEdit | TileGameSocket/Program.cs:87-95 | an edit inside the world replaces exactly the addressed cell with air or with a new tile of the requested index and drop at pixel position `(40x, 40y)`; everything else stays; an edit outside the world is rejected |
| Session.ClearedCellReadsBackEmpty | TileGameSocket/Program.cs:89-94 | after clearing a cell it reads back empty, and any other cell reads as before |
| Session.LastEditWins | TileGameSocket/Program.cs:89-94 | two edits of one cell leave the world as the second alone would |
| Session.OnMessage | TileGameSocket/Program.cs:79-97 | "SetPosition" stores the position and runs `UpdatePos` from it, so the tracker, the chunk and biome sends and the broadcast are UpdatePos's; "SetTile" applies the edit and relays the request to the others, or does nothing when the edit is rejected; any other type changes nothing and sends nothing; the registry keeps its keys and counter |
| Session.OnClose | TileGameSocket/Program.cs:69-77 | only the closing player's id leaves the registry; the counter is kept; "player_left" goes to the others |

## Left out

- Perlin noise (`LibNoise.Perlin`) and the double arithmetic around it
  (`TileGameSocket/World.cs:94-96, 101, 108`). The surface rows, depth
  jitter and biome jitter are integer inputs of `Terrain.GenerateWorld`.
- `System.Random`. The seed grids of the cave and ore maps and the band draws
  are inputs. The probabilities are kept only as the constants
  `CaveStartingChance` and `Ore.initialChance`.
- Networking: WebSocketSharp server setup, `Send` and the socket writes.
  Sends are returned as `Outgoing` values.
- JSON serialisation and the `dynamic` parse of inbound messages. A request
  arrives already decoded as a `Session.Request`.
- Concurrency: the generation task racing early connections, and concurrent
  handler calls. Each handler is modelled as one atomic step.
- Console logging and timing.
- Double-typed positions. Pixel positions are integers, so
  `Math.Floor(p / 40 / 50)` is integer floor division by 2000.
- Registry.AddPlayer: the counter is an unbounded natural. In the server
  it is a 32-bit `int` (`TileGameSocket/World.cs:52, 291`), so after 2^31
  joins the ids turn negative, and after 2^32 joins they repeat, when
  `players.Add` would throw on an id still in use. Registry.IssuedIdsIncrease
  (consecutive ids from the counter, none already in use) therefore holds only for runs of
  fewer than 2^31 joins from a fresh server.
- Messages.Roster: lists the registry in ascending id order. The server
  enumerates its `Dictionary`, whose order the platform does not specify.
- Terrain.OreClaims: requires an even world height. The ore maps have
  `height / 2` rows, and for an odd height the deepest row's lookup
  `y - height / 2` is one past the last row.
- Terrain.BiomeAtPos: requires a world at least one cell wide and high.
  For an empty world the server's clamp produces index -1 and the lookup
  throws.
- Messages.NewWorldDataMessage: requires a world with at least one
  column when it has rows. In a zero-width world the server's spawn search
  reads column 0, which does not exist, and throws.
- Session.ApplyTileEdit: an out-of-range `SetTile` makes the server's
  array store throw inside the message handler, before anything is written
  or broadcast. The model returns no world and sends nothing.
- Visibility.RevealedOncePerChunk: follows one connection, through
  Session.WalkRevealsEachChunkOnce. A connection's tracker is created at
  open and dropped at close, so "at most once" is per connection.
- The height map is not recomputed after tile edits, as in the server.

=== FILE: automaton.dfy ===
/** One pass of the cellular automaton the terrain generator uses to shape
    caves and ore deposits (`RunAutomataStep` in World.cs).

    The step reads its input grid and builds a fresh grid of the same
    dimensions; the input is a value and cannot be changed by the call. */
module Automaton {
  import opened Grids

  /** The eight neighbour offsets, in the order the server scans them. */
  const NeighbourOffsets: seq<(int, int)> :=
    [(-1, -1), (0, -1), (1, -1), (-1, 0), (1, 0), (-1, 1), (0, 1), (1, 1)]

  predicate IsUnitOffset(d: (int, int))
  {
    -1 <= d.0 <= 1 && -1 <= d.1 <= 1
  }

  /** What one neighbour adds to the live count: an out-of-bounds neighbour
      counts exactly when `edgeIsNeighbour` holds, an in-bounds one when it
      is alive. */
  function Contribution(g: seq<seq<bool>>, w: int, h: int, x2: int, y2: int, edgeIsNeighbour: bool): (n: nat)
    requires IsGrid(g, w, h)
    ensures n <= 1
  {
    if !InGrid(x2, y2, w, h) then (if edgeIsNeighbour then 1 else 0)
    else if g[x2][y2] then 1 else 0
  }

  /** The live count over the neighbours of `(x, y)` at the given offsets. */
  function CountOver(g: seq<seq<bool>>, w: int, h: int, x: int, y: int, edgeIsNeighbour: bool,
                     offsets: seq<(int, int)>): (n: nat)
    requires IsGrid(g, w, h)
    ensures n <= |offsets|
  {
    if offsets == [] then 0
    else Contribution(g, w, h, x + offsets[0].0, y + offsets[0].1, edgeIsNeighbour)
         + CountOver(g, w, h, x, y, edgeIsNeighbour, offsets[1..])
  }

  /** Number of offsets that land outside the grid. */
  function OutsideCount(w: int, h: int, x: int, y: int, offsets: seq<(int, int)>): nat
  {
    if offsets == [] then 0
    else (if InGrid(x + offsets[0].0, y + offsets[0].1, w, h) then 0 else 1)
         + OutsideCount(w, h, x, y, offsets[1..])
  }

  /** Number of offsets that land on a live cell inside the grid. */
  function InsideAlive(g: seq<seq<bool>>, w: int, h: int, x: int, y: int, offsets: seq<(int, int)>): nat
    requires IsGrid(g, w, h)
  {
    if offsets == [] then 0
    else (var x2, y2 := x + offsets[0].0, y + offsets[0].1;
          if InGrid(x2, y2, w, h) && g[x2][y2] then 1 else 0)
         + InsideAlive(g, w, h, x, y, offsets[1..])
  }

  /** The live neighbour count of cell `(x, y)`. */
  function AliveNeighbours(g: seq<seq<bool>>, w: int, h: int, x: int, y: int, edgeIsNeighbour: bool): (n: nat)
    requires IsGrid(g, w, h)
    ensures n <= 8
  {
    CountOver(g, w, h, x, y, edgeIsNeighbour, NeighbourOffsets)
  }

  /** The count is the live in-bounds neighbours plus, when edges count,
      one for every out-of-bounds neighbour. */
  lemma {:induction false} CountSplit(g: seq<seq<bool>>, w: int, h: int, x: int, y: int,
                                      edgeIsNeighbour: bool, offsets: seq<(int, int)>)
    requires IsGrid(g, w, h)
    ensures CountOver(g, w, h, x, y, edgeIsNeighbour, offsets)
            == InsideAlive(g, w, h, x, y, offsets)
               + (if edgeIsNeighbour then OutsideCount(w, h, x, y, offsets) else 0)
    decreases |offsets|
  {
    if offsets != [] {
      CountSplit(g, w, h, x, y, edgeIsNeighbour, offsets[1..]);
    }
  }

  /** A cell at least one step away from every border has no out-of-bounds
      neighbour. */
  lemma {:induction false} InteriorHasNoOutside(w: int, h: int, x: int, y: int, offsets: seq<(int, int)>)
    requires 1 <= x < w - 1 && 1 <= y < h - 1
    requires forall i :: 0 <= i < |offsets| ==> IsUnitOffset(offsets[i])
    ensures OutsideCount(w, h, x, y, offsets) == 0
    decreases |offsets|
  {
    if offsets != [] {
      assert IsUnitOffset(offsets[0]);
      InteriorHasNoOutside(w, h, x, y, offsets[1..]);
    }
  }

  /** Away from the border the edge flag does not change the count. */
  lemma InteriorIgnoresEdgeFlag(g: seq<seq<bool>>, w: int, h: int, x: int, y: int)
    requires IsGrid(g, w, h)
    requires 1 <= x < w - 1 && 1 <= y < h - 1
    ensures AliveNeighbours(g, w, h, x, y, true) == AliveNeighbours(g, w, h, x, y, false)
  {
    CountSplit(g, w, h, x, y, true, NeighbourOffsets);
    CountSplit(g, w, h, x, y, false, NeighbourOffsets);
    InteriorHasNoOutside(w, h, x, y, NeighbourOffsets);
  }

  /** Whether the neighbour at `(x2, y2)` lies outside the grid, as 0 or 1. */
  function Outside(w: int, h: int, x2: int, y2: int): nat
  {
    if InGrid(x2, y2, w, h) then 0 else 1
  }

  /** The out-of-bounds count over the eight neighbours, written out one
      offset at a time. */
  lemma OutsideCountUnrolled(w: int, h: int, x: int, y: int)
    ensures OutsideCount(w, h, x, y, NeighbourOffsets)
            == Outside(w, h, x - 1, y - 1) + Outside(w, h, x, y - 1) + Outside(w, h, x + 1, y - 1)
               + Outside(w, h, x - 1, y) + Outside(w, h, x + 1, y)
               + Outside(w, h, x - 1, y + 1) + Outside(w, h, x, y + 1) + Outside(w, h, x + 1, y + 1)
  {
    var o := NeighbourOffsets;
    // Walk the offset list from its tail.
    assert OutsideCount(w, h, x, y, o[8..]) == 0;
    assert OutsideCount(w, h, x, y, o[7..]) == Outside(w, h, x + 1, y + 1);
    assert OutsideCount(w, h, x, y, o[6..]) == Outside(w, h, x, y + 1) + OutsideCount(w, h, x, y, o[7..]);
    assert OutsideCount(w, h, x, y, o[5..]) == Outside(w, h, x - 1, y + 1) + OutsideCount(w, h, x, y, o[6..]);
    assert OutsideCount(w, h, x, y, o[4..]) == Outside(w, h, x + 1, y) + OutsideCount(w, h, x, y, o[5..]);
    assert OutsideCount(w, h, x, y, o[3..]) == Outside(w, h, x - 1, y) + OutsideCount(w, h, x, y, o[4..]);
    assert OutsideCount(w, h, x, y, o[2..]) == Outside(w, h, x + 1, y - 1) + OutsideCount(w, h, x, y, o[3..]);
    assert OutsideCount(w, h, x, y, o[1..]) == Outside(w, h, x, y - 1) + OutsideCount(w, h, x, y, o[2..]);
    assert o[0..] == o;
  }

  /** Each of the four corner cells of a grid at least 2x2 has five
      out-of-bounds neighbours, so with edges counted it starts from five. */
  lemma CornerCountsFiveEdges(g: seq<seq<bool>>, w: int, h: int, x: int, y: int)
    requires IsGrid(g, w, h) && w >= 2 && h >= 2
    requires (x == 0 || x == w - 1) && (y == 0 || y == h - 1)
    ensures OutsideCount(w, h, x, y, NeighbourOffsets) == 5
    ensures AliveNeighbours(g, w, h, x, y, true) >= 5
  {
    OutsideCountUnrolled(w, h, x, y);
    CountSplit(g, w, h, x, y, true, NeighbourOffsets);
  }

  /** The new state of one cell: birth when the count reaches `birthLimit`,
      then death when it is below `deathLimit`; death is applied last and
      so wins. */
  function NextState(current: bool, alive: int, deathLimit: int, birthLimit: int): bool
  {
    var born := if alive >= birthLimit then true else current;
    if alive < deathLimit then false else born
  }

  /** One relaxation pass over `g`. */
  function Step(g: seq<seq<bool>>, w: nat, h: nat, deathLimit: int, birthLimit: int, edgeIsNeighbour: bool)
    : (r: seq<seq<bool>>)
    requires IsGrid(g, w, h)
    ensures IsGrid(r, w, h)
    ensures forall x, y :: InGrid(x, y, w, h) && AliveNeighbours(g, w, h, x, y, edgeIsNeighbour) < deathLimit
                           ==> !r[x][y]
    ensures forall x, y :: InGrid(x, y, w, h) && AliveNeighbours(g, w, h, x, y, edgeIsNeighbour) >= deathLimit
                           && AliveNeighbours(g, w, h, x, y, edgeIsNeighbour) >= birthLimit
                           ==> r[x][y]
    ensures forall x, y :: InGrid(x, y, w, h) && deathLimit <= AliveNeighbours(g, w, h, x, y, edgeIsNeighbour) < birthLimit
                           ==> r[x][y] == g[x][y]
  {
    seq(w, x requires 0 <= x < w =>
      seq(h, y requires 0 <= y < h =>
        NextState(g[x][y], AliveNeighbours(g, w, h, x, y, edgeIsNeighbour), deathLimit, birthLimit)))
  }

  /** `steps` successive relaxation passes, as the cave generator runs them. */
  function Relax(g: seq<seq<bool>>, w: nat, h: nat, steps: nat, deathLimit: int, birthLimit: int, edgeIsNeighbour: bool)
    : (r: seq<seq<bool>>)
    requires IsGrid(g, w, h)
    ensures IsGrid(r, w, h)
    decreases steps
  {
    if steps == 0 then g
    else Relax(Step(g, w, h, deathLimit, birthLimit, edgeIsNeighbour), w, h, steps - 1,
               deathLimit, birthLimit, edgeIsNeighbour)
  }
}

=== FILE: biomes.dfy ===
/** Biome banding (`GenerateBiomes` in World.cs): the world's columns are
    covered left to right by bands of random width, each with a random biome
    id. The random draws are an input: draw `k` gives the width and id of the
    k-th band. */
module Biomes {
  import opened Grids

  /** One pair of draws, `rand.Next(20, 40)` and `rand.Next(0, 4)`. */
  datatype BandDraw = BandDraw(width: int, id: int)

  const MinBandWidth := 20
  const MaxBandWidth := 40   // exclusive, as `Random.Next`'s upper bound is
  const BiomeCount := 4      // ids are drawn from [0, BiomeCount)

  predicate ValidDraw(d: BandDraw)
  {
    MinBandWidth <= d.width < MaxBandWidth && 0 <= d.id < BiomeCount
  }

  predicate ValidDraws(draws: seq<BandDraw>)
  {
    forall k :: 0 <= k < |draws| ==> ValidDraw(draws[k])
  }

  /** The first column of band `k`: the sum of the widths of the bands
      before it. */
  function BandStart(draws: seq<BandDraw>, k: nat): int
    requires k <= |draws|
  {
    if k == 0 then 0 else BandStart(draws, k - 1) + draws[k - 1].width
  }

  /** Band starts grow by at least the minimum width per band. */
  lemma {:induction false} BandStartGrowth(draws: seq<BandDraw>, i: nat, j: nat)
    requires ValidDraws(draws)
    requires i <= j <= |draws|
    ensures BandStart(draws, j) >= BandStart(draws, i) + MinBandWidth * (j - i)
    decreases j - i
  {
    if i < j {
      BandStartGrowth(draws, i, j - 1);
      assert ValidDraw(draws[j - 1]);
    }
  }

  /** Band `k` covers the columns in `[BandStart(k), BandStart(k + 1))`. */
  predicate InBand(draws: seq<BandDraw>, k: nat, x: int)
    requires k < |draws|
  {
    BandStart(draws, k) <= x < BandStart(draws, k + 1)
  }

  /** `GenerateBiomes`: the per-column biome ids and the number of bands
      drawn. Every column of `[0, width)` gets the id of the band covering
      it; the loop draws exactly until the bands reach `width`, so the last
      band is clipped and no band starts at or past `width`. */
  method GenerateBiomes(width: nat, draws: seq<BandDraw>) returns (biomes: seq<int>, bands: nat)
    requires ValidDraws(draws)
    requires width <= MinBandWidth * |draws|
    ensures |biomes| == width
    ensures bands <= |draws|
    ensures BandStart(draws, bands) >= width
    ensures forall k :: 0 <= k < bands ==> BandStart(draws, k) < width
    ensures forall k, x :: 0 <= k < bands && 0 <= x < width && InBand(draws, k, x) ==> biomes[x] == draws[k].id
    ensures forall x :: 0 <= x < width ==> 0 <= biomes[x] < BiomeCount
  {
    biomes := [];
    bands := 0;
    var accumulatedWidth := 0;
    while accumulatedWidth < width
      invariant bands <= |draws|
      invariant accumulatedWidth == BandStart(draws, bands)
      invariant accumulatedWidth >= MinBandWidth * bands
      invariant |biomes| == Min(accumulatedWidth, width)
      invariant forall k :: 0 <= k < bands ==> BandStart(draws, k) < width
      invariant forall k, x :: 0 <= k < bands && 0 <= x < |biomes| && InBand(draws, k, x) ==> biomes[x] == draws[k].id
      invariant forall x :: 0 <= x < |biomes| ==> 0 <= biomes[x] < BiomeCount
      decreases width - accumulatedWidth
    {
      var start := accumulatedWidth;
      var d := draws[bands];
      assert ValidDraw(d);
      accumulatedWidth := accumulatedWidth + d.width;
      var stop := Min(width, accumulatedWidth);
      biomes := biomes + seq(stop - start, _ => d.id);
      forall k, x | 0 <= k < bands && 0 <= x < |biomes| && InBand(draws, k, x)
        ensures x < start
      {
        BandStartGrowth(draws, k + 1, bands);
      }
      bands := bands + 1;
    }
  }

  /** The bands cover `[0, BandStart(n))` without gaps: every column in that
      range lies in some band before `n`. */
  lemma {:induction false} BandsCoverColumns(draws: seq<BandDraw>, n: nat, x: int)
    requires ValidDraws(draws) && n <= |draws|
    requires 0 <= x < BandStart(draws, n)
    ensures exists k :: 0 <= k < n && InBand(draws, k, x)
    decreases n
  {
    if x < BandStart(draws, n - 1) {
      BandsCoverColumns(draws, n - 1, x);
    } else {
      assert InBand(draws, n - 1, x);
    }
  }

  /** The bands do not overlap: a column lies in at most one band. */
  lemma BandsDisjoint(draws: seq<BandDraw>, k1: nat, k2: nat, x: int)
    requires ValidDraws(draws) && k1 < |draws| && k2 < |draws|
    requires InBand(draws, k1, x) && InBand(draws, k2, x)
    ensures k1 == k2
  {
    if k1 < k2 {
      BandStartGrowth(draws, k1 + 1, k2);
    } else if k2 < k1 {
      BandStartGrowth(draws, k2 + 1, k1);
    }
  }

  /** Together: after `GenerateBiomes`, every column's id is the id of the
      one band that covers it. */
  lemma ColumnHasUniqueBand(draws: seq<BandDraw>, bands: nat, width: nat, x: int)
    requires ValidDraws(draws) && bands <= |draws| && BandStart(draws, bands) >= width
    requires 0 <= x < width
    ensures exists k :: 0 <= k < bands && InBand(draws, k, x)
    ensures forall k1, k2 :: 0 <= k1 < bands && 0 <= k2 < bands && InBand(draws, k1, x) && InBand(draws, k2, x)
                             ==> k1 == k2
  {
    BandsCoverColumns(draws, bands, x);
    forall k1, k2 | 0 <= k1 < bands && 0 <= k2 < bands && InBand(draws, k1, x) && InBand(draws, k2, x)
      ensures k1 == k2
    {
      BandsDisjoint(draws, k1, k2, x);
    }
  }
}

=== FILE: grids.dfy ===
/** Shared value types of the tile-world server: optional values, integer
    pixel positions and rectangular two-dimensional grids.

    A grid is stored column-major, `g[x][y]`, exactly as the server's
    `T[width, height]` arrays are indexed. Its dimensions are carried
    alongside it (`IsGrid(g, w, h)`), so a grid with no columns still has a
    height, as a .NET array of length 0 in its first dimension does. */
module Grids {

  datatype Option<+T> = None | Some(value: T)

  /** A position in pixels. The server stores these as doubles, and a
      client may send fractional values; the model uses integers. */
  datatype Vector2 = Vector2(x: int, y: int)

  /** `g` has `w` columns, each `h` cells high. */
  predicate IsGrid<T>(g: seq<seq<T>>, w: int, h: int)
  {
    |g| == w && forall x :: 0 <= x < |g| ==> |g[x]| == h
  }

  predicate InGrid(x: int, y: int, w: int, h: int)
  {
    0 <= x < w && 0 <= y < h
  }

  function Min(a: int, b: int): int { if a <= b then a else b }

  function Max(a: int, b: int): int { if a >= b then a else b }

  /** `Math.Min(hi, Math.Max(lo, v))`: the nearest value to `v` in `[lo, hi]`. */
  function Clamp(v: int, lo: int, hi: int): (r: int)
    requires lo <= hi
    ensures lo <= r <= hi
    ensures lo <= v <= hi ==> r == v
    ensures v < lo ==> r == lo
    ensures v > hi ==> r == hi
  {
    Min(hi, Max(lo, v))
  }

  /** The grid with the single cell `(x, y)` replaced by `v`. */
  function SetCell<T>(g: seq<seq<T>>, w: int, h: int, x: int, y: int, v: T): (g': seq<seq<T>>)
    requires IsGrid(g, w, h) && InGrid(x, y, w, h)
    ensures IsGrid(g', w, h)
    ensures g'[x][y] == v
    ensures forall i, j :: InGrid(i, j, w, h) && (i, j) != (x, y) ==> g'[i][j] == g[i][j]
  {
    g[x := g[x][y := v]]
  }

  /** Writing a cell back to the value it held undoes an edit. */
  lemma SetCellUndo<T>(g: seq<seq<T>>, w: int, h: int, x: int, y: int, v: T)
    requires IsGrid(g, w, h) && InGrid(x, y, w, h)
    ensures SetCell(SetCell(g, w, h, x, y, v), w, h, x, y, g[x][y]) == g
  {
    var g2 := SetCell(SetCell(g, w, h, x, y, v), w, h, x, y, g[x][y]);
    assert |g2| == |g|;
    forall i | 0 <= i < |g|
      ensures g2[i] == g[i]
    {
      assert |g2[i]| == |g[i]|;
      forall j | 0 <= j < |g[i]|
        ensures g2[i][j] == g[i][j]
      {
      }
    }
  }

  /** Of two edits to the same cell only the later one is visible. */
  lemma SetCellLastWins<T>(g: seq<seq<T>>, w: int, h: int, x: int, y: int, u: T, v: T)
    requires IsGrid(g, w, h) && InGrid(x, y, w, h)
    ensures SetCell(SetCell(g, w, h, x, y, u), w, h, x, y, v) == SetCell(g, w, h, x, y, v)
  {
    var a := SetCell(SetCell(g, w, h, x, y, u), w, h, x, y, v);
    var b := SetCell(g, w, h, x, y, v);
    forall i | 0 <= i < |a|
      ensures a[i] == b[i]
    {
      forall j | 0 <= j < |a[i]|
        ensures a[i][j] == b[i][j]
      {
      }
    }
  }
}

=== FILE: messages.dfy ===
/** The server's outbound messages (Message.cs). Each message record carries
    a `type` string that the client dispatches on; every constructor sets a
    fixed tag and copies its payload. The JSON encoding itself is not part of
    this model. */
module Messages {
  import opened Grids
  import opened Tiles
  import Terrain
  import Registry

  /** One entry of the world-data roster. */
  datatype RosterEntry = RosterEntry(position: Option<Vector2>, id: int)

  datatype Message =
    | BiomeMessage(typeTag: string, biome: int)
    | ChunkMessage(typeTag: string, tiles: seq<Option<Tile>>, position: Vector2)
    | WorldDataMessage(typeTag: string, heightMap: seq<int>, size: Vector2, spawnPosition: Vector2,
                       localId: int, players: seq<RosterEntry>)
    | PlayerJoinedMessage(typeTag: string, playerId: int)
    | PlayerLeftMessage(typeTag: string, playerId: int)
    | SetPlayerPositionMessage(typeTag: string, position: Vector2, playerId: int)

  datatype Kind = BiomeKind | ChunkKind | WorldDataKind | PlayerJoinedKind | PlayerLeftKind | SetPlayerPositionKind

  function KindOf(m: Message): Kind
  {
    match m
    case BiomeMessage(_, _) => BiomeKind
    case ChunkMessage(_, _, _) => ChunkKind
    case WorldDataMessage(_, _, _, _, _, _) => WorldDataKind
    case PlayerJoinedMessage(_, _) => PlayerJoinedKind
    case PlayerLeftMessage(_, _) => PlayerLeftKind
    case SetPlayerPositionMessage(_, _, _) => SetPlayerPositionKind
  }

  /** The `type` string each kind of message carries. */
  function TagOf(k: Kind): string
  {
    match k
    case BiomeKind => "biome"
    case ChunkKind => "chunk"
    case WorldDataKind => "world_data_"
    case PlayerJoinedKind => "player_joined"
    case PlayerLeftKind => "player_left"
    case SetPlayerPositionKind => "set_player_position"
  }

  /** How a receiver reads a `type` string back; unknown strings are no
      message kind. */
  function KindOfTag(tag: string): (k: Option<Kind>)
    ensures k.Some? ==> TagOf(k.value) == tag
  {
    if tag == "biome" then Some(BiomeKind)
    else if tag == "chunk" then Some(ChunkKind)
    else if tag == "world_data_" then Some(WorldDataKind)
    else if tag == "player_joined" then Some(PlayerJoinedKind)
    else if tag == "player_left" then Some(PlayerLeftKind)
    else if tag == "set_player_position" then Some(SetPlayerPositionKind)
    else None
  }

  /** The tags are pairwise distinct, so a receiver recovers the kind of every
      message from its tag alone. */
  lemma TagIdentifiesKind(k: Kind)
    ensures KindOfTag(TagOf(k)) == Some(k)
  {
  }

  /** A message built by one of the constructors below. */
  predicate WellTagged(m: Message)
  {
    m.typeTag == TagOf(KindOf(m))
  }

  function NewBiomeMessage(biome: int): (m: Message)
    ensures WellTagged(m) && m.BiomeMessage? && m.biome == biome
  {
    BiomeMessage("biome", biome)
  }

  /** The chunk message keeps the collected tiles in order, nulls included. */
  function NewChunkMessage(tiles: seq<Option<Tile>>, position: Vector2): (m: Message)
    ensures WellTagged(m) && m.ChunkMessage?
    ensures |m.tiles| == |tiles| && forall i :: 0 <= i < |tiles| ==> m.tiles[i] == tiles[i]
    ensures m.position == position
  {
    ChunkMessage("chunk", tiles, position)
  }

  function NewPlayerJoinedMessage(playerId: int): (m: Message)
    ensures WellTagged(m) && m.PlayerJoinedMessage? && m.playerId == playerId
  {
    PlayerJoinedMessage("player_joined", playerId)
  }

  function NewPlayerLeftMessage(playerId: int): (m: Message)
    ensures WellTagged(m) && m.PlayerLeftMessage? && m.playerId == playerId
  {
    PlayerLeftMessage("player_left", playerId)
  }

  function NewSetPlayerPositionMessage(position: Vector2, playerId: int): (m: Message)
    ensures WellTagged(m) && m.SetPlayerPositionMessage?
    ensures m.position == position && m.playerId == playerId
  {
    SetPlayerPositionMessage("set_player_position", position, playerId)
  }

  /** The spawn search: the first row from the top whose cell in column
      `column` holds a tile, or 0 when the whole column is air. */
  method SpawnRow(tiles: seq<seq<Option<Tile>>>, w: nat, h: nat, column: int) returns (row: int)
    requires IsGrid(tiles, w, h) && (h == 0 || 0 <= column < w)
    ensures 0 <= row && (h > 0 ==> row < h) && (h == 0 ==> row == 0)
    ensures h > 0 ==> forall y :: 0 <= y < row ==> tiles[column][y].None?
    ensures h > 0 && row > 0 ==> tiles[column][row].Some?
    ensures h > 0 && (forall y :: 0 <= y < h ==> tiles[column][y].None?) ==> row == 0
    ensures h > 0 && (exists y :: 0 <= y < h && tiles[column][y].Some?) ==> tiles[column][row].Some?
  {
    row := 0;
    var y := 0;
    while y < h
      invariant 0 <= y <= h
      invariant forall y' :: 0 <= y' < y ==> tiles[column][y'].None?
    {
      if tiles[column][y].Some? {
        row := y;
        return;
      }
      y := y + 1;
    }
  }

  /** The spawn position derived from the spawn cell: its pixel column, and
      90 pixels above its pixel row. */
  function SpawnPosition(column: int, row: int): (p: Vector2)
    ensures p.x / TileSize == column && p.x % TileSize == 0
    ensures p.y + 90 == TileSize * row
  {
    Vector2(column * TileSize, row * TileSize - 90)
  }

  /** The roster of registered players, one entry per registry key with
      that player's position. Every registered id is below `bound` (the id
      counter). The registry's own iteration order is not specified; this
      one lists ids in ascending order. */
  method Roster(players: map<int, Option<Vector2>>, bound: nat) returns (roster: seq<RosterEntry>)
    requires forall id :: id in players ==> 0 <= id < bound
    ensures |roster| == |players|
    ensures forall i :: 0 <= i < |roster| ==> roster[i].id in players && roster[i].position == players[roster[i].id]
    ensures forall id :: id in players ==> Listed(roster, id)
    ensures forall i, j :: 0 <= i < j < |roster| ==> roster[i].id != roster[j].id
  {
    roster := [];
    var remaining := players.Keys;
    var next := 0;
    while next < bound
      invariant 0 <= next <= bound
      invariant remaining == set id | id in players && id >= next
      invariant |roster| + |remaining| == |players.Keys|
      invariant forall i :: 0 <= i < |roster| ==>
        roster[i].id in players && roster[i].id < next && roster[i].position == players[roster[i].id]
      invariant forall id :: id in players && id < next ==> Listed(roster, id)
      invariant forall i, j :: 0 <= i < j < |roster| ==> roster[i].id < roster[j].id
    {
      UnlistedAfter(players, next);
      if next in players {
        ListedAfterAppend(roster, RosterEntry(players[next], next));
        roster := roster + [RosterEntry(players[next], next)];
        remaining := remaining - {next};
      }
      next := next + 1;
    }
    assert remaining == {};
  }

  /** Moving the scan past `next` removes exactly `next` from the ids still
      to list, when it is registered, and nothing otherwise. */
  lemma UnlistedAfter(players: map<int, Option<Vector2>>, next: int)
    ensures var before := set id | id in players && id >= next;
      var after := set id | id in players && id >= next + 1;
      && (next in players ==> after == before - {next} && |after| == |before| - 1)
      && (next !in players ==> after == before)
  {
    var before := set id | id in players && id >= next;
    var after := set id | id in players && id >= next + 1;
    if next in players {
      assert after == before - {next};
      assert before == after + {next};
    } else {
      assert after == before;
    }
  }

  /** `id` has an entry in the roster. */
  predicate Listed(roster: seq<RosterEntry>, id: int)
  {
    exists i :: 0 <= i < |roster| && roster[i].id == id
  }

  /** Appending an entry keeps every listed id listed and lists the new one. */
  lemma ListedAfterAppend(roster: seq<RosterEntry>, e: RosterEntry)
    ensures Listed(roster + [e], e.id)
    ensures forall k :: Listed(roster, k) ==> Listed(roster + [e], k)
  {
    var r' := roster + [e];
    assert r'[|roster|].id == e.id;
    forall k | Listed(roster, k)
      ensures Listed(r', k)
    {
      var i :| 0 <= i < |roster| && roster[i].id == k;
      assert r'[i].id == k;
    }
  }

  /** `p` is where a connecting player spawns in `world`: the middle column
      `width / 2`, at the first row of that column holding a tile, or row 0
      when the column is all air (or the world has no rows). */
  ghost predicate SpawnsAt(world: Terrain.World, p: Vector2)
    requires Terrain.ValidWorld(world) && (world.height == 0 || world.width >= 1)
  {
    var column := world.width / 2;
    && p.x == TileSize * column
    && (world.height == 0 ==> p == SpawnPosition(column, 0))
    && (world.height > 0 ==>
          exists row ::
            && 0 <= row < world.height
            && p == SpawnPosition(column, row)
            && (forall y :: 0 <= y < row ==> world.tiles[column][y].None?)
            && (row > 0 ==> world.tiles[column][row].Some?)
            && ((forall y :: 0 <= y < world.height ==> world.tiles[column][y].None?) ==> row == 0)
            && ((exists y :: 0 <= y < world.height && world.tiles[column][y].Some?) ==>
                  world.tiles[column][row].Some?))
  }

  /** `roster` lists the registry: one entry per registered id, each with
      that player's position, and no id twice. */
  ghost predicate ListsRegistry(roster: seq<RosterEntry>, players: map<int, Option<Vector2>>)
  {
    && |roster| == |players|
    && (forall i :: 0 <= i < |roster| ==>
          roster[i].id in players && roster[i].position == players[roster[i].id])
    && (forall id :: id in players ==> Listed(roster, id))
    && (forall i, j :: 0 <= i < j < |roster| ==> roster[i].id != roster[j].id)
  }

  /** The `WorldDataMessage` constructor, sent to a connecting player: it
      finds the spawn cell in the middle column, stores the spawn position as
      that player's position, and lists every registered player. */
  method NewWorldDataMessage(world: Terrain.World, registry: Registry.Registry, localId: int)
    returns (m: Message, registry': Registry.Registry)
    requires Terrain.ValidWorld(world) && (world.height == 0 || world.width >= 1)
    requires Registry.Valid(registry) && localId in registry.players
    ensures WellTagged(m) && m.WorldDataMessage?
    ensures m.heightMap == world.heightMap
    ensures m.size == Vector2(world.width, world.height)
    ensures m.localId == localId
    ensures SpawnsAt(world, m.spawnPosition)
    ensures Registry.Valid(registry')
    ensures registry' == Registry.SetPosition(registry, localId, m.spawnPosition)
    ensures ListsRegistry(m.players, registry'.players)
  {
    var column := world.width / 2;
    var row := SpawnRow(world.tiles, world.width, world.height, column);
    var spawn := SpawnPosition(column, row);
    registry' := Registry.SetPosition(registry, localId, spawn);
    var roster := Roster(registry'.players, registry'.playerLength);
    m := WorldDataMessage("world_data_", world.heightMap, Vector2(world.width, world.height), spawn, localId, roster);
  }
}

=== FILE: registry.dfy ===
/** The server's player registry: `players` and `playerLength` of
    `GameServer` (World.cs), with `AddPlayer`, and the removal done when a
    connection closes (Program.cs `OnClose`).

    The registry maps a player id to that player's connection; the only part
    of the connection anything reads through the registry is its pixel
    position, which is null (`None`) from `AddPlayer` until the world-data
    message assigns the spawn position. */
module Registry {
  import opened Grids

  datatype Registry = Registry(players: map<int, Option<Vector2>>, playerLength: nat)

  /** Every registered id was handed out earlier, so it is below the
      counter. */
  predicate Valid(r: Registry)
  {
    forall id :: id in r.players ==> 0 <= id < r.playerLength
  }

  /** The registry a freshly started server has. */
  function Empty(): (r: Registry)
    ensures Valid(r) && r.players == map[] && r.playerLength == 0
  {
    Registry(map[], 0)
  }

  /** `AddPlayer`: the new id is the counter's value, it is not yet in use,
      and the registry gains exactly that key. */
  function AddPlayer(r: Registry): (res: (Registry, int))
    requires Valid(r)
    ensures res.1 == r.playerLength && res.1 !in r.players
    ensures res.0.players.Keys == r.players.Keys + {res.1}
    ensures res.0.players[res.1] == None
    ensures forall id :: id in r.players ==> res.0.players[id] == r.players[id]
    ensures res.0.playerLength == r.playerLength + 1
    ensures Valid(res.0)
  {
    var id := r.playerLength;
    (Registry(r.players[id := None], r.playerLength + 1), id)
  }

  /** The removal in `OnClose`: only `id` leaves; the counter is untouched,
      so the id is never handed out again. */
  function RemovePlayer(r: Registry, id: int): (r': Registry)
    requires Valid(r)
    ensures r'.players.Keys == r.players.Keys - {id}
    ensures forall k :: k in r'.players ==> r'.players[k] == r.players[k]
    ensures r'.playerLength == r.playerLength
    ensures Valid(r')
  {
    Registry(r.players - {id}, r.playerLength)
  }

  /** Records a player's position; a player no longer registered is left
      out, as the registry no longer refers to its connection. */
  function SetPosition(r: Registry, id: int, position: Vector2): (r': Registry)
    requires Valid(r)
    ensures r'.players.Keys == r.players.Keys && r'.playerLength == r.playerLength
    ensures id in r.players ==> r'.players[id] == Some(position)
    ensures forall k :: k in r.players && k != id ==> r'.players[k] == r.players[k]
    ensures Valid(r')
  {
    if id in r.players then Registry(r.players[id := Some(position)], r.playerLength) else r
  }

  /** A connection or a disconnection. */
  datatype Event = Join | Leave(id: int)

  /** Replays the events; the result lists the ids `AddPlayer` returned, in
      order. */
  function Replay(r: Registry, events: seq<Event>): (res: (Registry, seq<int>))
    requires Valid(r)
    ensures Valid(res.0)
    decreases |events|
  {
    if events == [] then (r, [])
    else
      var r1 := match events[0]
                case Join => AddPlayer(r).0
                case Leave(id) => RemovePlayer(r, id);
      var issued := match events[0]
                    case Join => [AddPlayer(r).1]
                    case Leave(_) => [];
      var rest := Replay(r1, events[1..]);
      (rest.0, issued + rest.1)
  }

  /** The ids handed out over any sequence of connections and disconnections
      are the counter's value and the ones after it, in order: the k-th join
      gets `playerLength + k`, the counter ends past the last of them, and
      none was in use when the sequence began. */
  lemma {:induction false} IssuedIdsIncrease(r: Registry, events: seq<Event>)
    requires Valid(r)
    ensures var (r', ids) := Replay(r, events);
      && (forall i :: 0 <= i < |ids| ==> ids[i] == r.playerLength + i)
      && r'.playerLength == r.playerLength + |ids|
      && (forall i, j :: 0 <= i < j < |ids| ==> ids[i] < ids[j])
      && (forall i :: 0 <= i < |ids| ==> r.playerLength <= ids[i] < r'.playerLength && ids[i] !in r.players)
      && r.playerLength <= r'.playerLength
    decreases |events|
  {
    if events != [] {
      var r1 := match events[0]
                case Join => AddPlayer(r).0
                case Leave(id) => RemovePlayer(r, id);
      IssuedIdsIncrease(r1, events[1..]);
    }
  }
}

=== FILE: session.dfy ===
/** The connection handlers of `GameClient` (Program.cs): `OnOpen`,
    `OnMessage`, `OnClose`, `UpdatePos` and the recipient filter of
    `Broadcast`. The server's world and registry are passed explicitly in a
    `Server` record, and every send is returned as an `Outgoing` value naming
    its recipients instead of being written to a socket. */
module Session {
  import opened Grids
  import opened Tiles
  import Terrain
  import Registry
  import Messages
  import Visibility

  /** The states a WebSocket session can be in. */
  datatype SocketState = Connecting | Open | Closing | Closed

  /** A session of the server's session manager, known by its id. */
  datatype Session = Session(sid: int, state: SocketState)

  /** Broadcast skips the sender and every session that is not open. */
  predicate Receives(s: Session, sender: int)
  {
    s.sid != sender && s.state == Open
  }

  /** The recipient filter of `Broadcast`: the ids of the sessions that
      receive, in the session manager's order. */
  function Broadcast(sessions: seq<Session>, sender: int): (recipients: seq<int>)
    ensures |recipients| <= |sessions|
    ensures sender !in recipients
    ensures forall k :: 0 <= k < |sessions| && Receives(sessions[k], sender) ==> sessions[k].sid in recipients
    ensures forall r :: r in recipients ==>
      exists k :: 0 <= k < |sessions| && sessions[k].sid == r && Receives(sessions[k], sender)
    decreases |sessions|
  {
    if sessions == [] then []
    else
      var rest := Broadcast(sessions[1..], sender);
      assert forall r :: r in rest ==>
        exists k :: 0 <= k < |sessions| && sessions[k].sid == r && Receives(sessions[k], sender) by {
        forall r | r in rest
          ensures exists k :: 0 <= k < |sessions| && sessions[k].sid == r && Receives(sessions[k], sender)
        {
          var k :| 0 <= k < |sessions[1..]| && sessions[1..][k].sid == r && Receives(sessions[1..][k], sender);
          assert sessions[k + 1] == sessions[1..][k];
        }
      }
      assert forall k :: 1 <= k < |sessions| ==> sessions[k] == sessions[1..][k - 1];
      (if Receives(sessions[0], sender) then [sessions[0].sid] else []) + rest
  }

  /** Broadcasting over two groups of sessions reaches the first group's
      recipients and then the second's: the filter keeps the order. */
  lemma {:induction false} BroadcastAppend(a: seq<Session>, b: seq<Session>, sender: int)
    ensures Broadcast(a + b, sender) == Broadcast(a, sender) + Broadcast(b, sender)
    decreases |a|
  {
    if a == [] {
      assert a + b == b;
    } else {
      var head := if Receives(a[0], sender) then [a[0].sid] else [];
      assert (a + b)[0] == a[0] && (a + b)[1..] == a[1..] + b;
      assert Broadcast(a + b, sender) == head + Broadcast(a[1..] + b, sender);
      assert Broadcast(a, sender) == head + Broadcast(a[1..], sender);
      BroadcastAppend(a[1..], b, sender);
    }
  }

  /** The shared state every handler reads: the world and the registry. */
  datatype Server = Server(world: Terrain.World, registry: Registry.Registry)

  /** A world the handlers can serve: `BiomeAtPos` needs at least one cell. */
  predicate ValidServer(s: Server)
  {
    && Terrain.ValidWorld(s.world)
    && s.world.width >= 1 && s.world.height >= 1
    && Registry.Valid(s.registry)
  }

  /** A connection's own state. Its position lives in the registry, which
      refers to the connection. */
  datatype Client = Client(sid: int, playerId: int, tracker: Visibility.Tracker, biome: int)

  /** The tile of a `SetTile` request, or none for a removal. */
  datatype TileSpec = TileSpec(tileIndex: int, itemDrop: int)

  /** An inbound message after decoding its `type`; other types are kept
      only to be ignored. */
  datatype Request =
    | SetPositionRequest(position: Vector2)
    | SetTileRequest(x: int, y: int, tile: Option<TileSpec>)
    | OtherRequest(typeTag: string)

  /** What is sent: one of the server's messages, or an inbound request
      passed on unchanged. */
  datatype Payload = Msg(message: Messages.Message) | Relay(request: Request)

  datatype Outgoing = Outgoing(recipients: seq<int>, payload: Payload)

  /** A send to the connection itself. */
  function ToSelf(c: Client, m: Messages.Message): (o: Outgoing)
    ensures o.recipients == [c.sid] && o.payload == Msg(m)
  {
    Outgoing([c.sid], Msg(m))
  }

  /** `UpdatePos`: reveal chunks around the position, send the chunk message
      (if any) and the biome message to the connection, then broadcast the
      new position to the others. */
  function UpdatePos(world: Terrain.World, c: Client, position: Vector2, sessions: seq<Session>)
    : (res: (Client, seq<Outgoing>))
    requires Terrain.ValidWorld(world) && world.width >= 1 && world.height >= 1
    ensures var (c', outs) := res;
      && c'.sid == c.sid && c'.playerId == c.playerId
      && c'.tracker.chunksWidth == c.tracker.chunksWidth && c'.tracker.chunksHeight == c.tracker.chunksHeight
      && c.tracker.discovered <= c'.tracker.discovered
      && (forall ch :: ch in c'.tracker.discovered <==>
            ch in c.tracker.discovered || (ch in Visibility.Block(Visibility.ChunkOf(position)) && Visibility.InRange(c.tracker, ch)))
      && (2 <= |outs| <= 3)
      && (forall i :: 0 <= i < |outs| ==> outs[i].payload.Msg? && !outs[i].payload.message.WorldDataMessage?)
      && c'.biome == Terrain.BiomeAtPos(world, position)
      && outs[|outs| - 2] == ToSelf(c, Messages.NewBiomeMessage(c'.biome))
      && outs[|outs| - 1] == Outgoing(Broadcast(sessions, c.sid),
                                      Msg(Messages.NewSetPlayerPositionMessage(position, c.playerId)))
      && (|outs| == 3 <==> Visibility.Fresh(c.tracker, Visibility.Block(Visibility.ChunkOf(position))) != []
                           && |Visibility.Gather(world.tiles, world.width, world.height,
                                 Visibility.Fresh(c.tracker, Visibility.Block(Visibility.ChunkOf(position))))| > 0)
      && (|outs| == 3 ==>
            outs[0] == ToSelf(c, Messages.NewChunkMessage(
              Visibility.Gather(world.tiles, world.width, world.height,
                                Visibility.Fresh(c.tracker, Visibility.Block(Visibility.ChunkOf(position)))),
              position)))
  {
    var u := Visibility.Recalculate(c.tracker, world.tiles, world.width, world.height, position);
    var unseen := Visibility.Fresh(c.tracker, Visibility.Block(Visibility.ChunkOf(position)));
    assert u.tiles == Visibility.Gather(world.tiles, world.width, world.height, unseen);
    assert u.message.Some? <==> unseen != [] && |u.tiles| > 0;
    var biome := Terrain.BiomeAtPos(world, position);
    var c' := c.(tracker := u.tracker, biome := biome);
    var biomeOut := ToSelf(c, Messages.NewBiomeMessage(biome));
    var positionOut := Outgoing(Broadcast(sessions, c.sid), Msg(Messages.NewSetPlayerPositionMessage(position, c.playerId)));
    var chunkOut := if u.message.Some? then Some(ToSelf(c, u.message.value)) else None;
    (c', MoveReplies(chunkOut, biomeOut, positionOut))
  }

  /** The sends of a move, in order: the chunk message when there is one,
      then the biome, then the position. */
  function MoveReplies(chunkOut: Option<Outgoing>, biomeOut: Outgoing, positionOut: Outgoing): (outs: seq<Outgoing>)
    ensures |outs| == if chunkOut.Some? then 3 else 2
    ensures outs[|outs| - 2] == biomeOut && outs[|outs| - 1] == positionOut
    ensures chunkOut.Some? ==> outs[0] == chunkOut.value
    ensures forall i :: 0 <= i < |outs| ==> outs[i] == biomeOut || outs[i] == positionOut || Some(outs[i]) == chunkOut
  {
    if chunkOut.Some? then [chunkOut.value, biomeOut, positionOut] else [biomeOut, positionOut]
  }

  /** In a tracker sized for the world, a chunk message goes out exactly when
      the move discovers a chunk. */
  lemma ChunkSentIffDiscoveryGrows(world: Terrain.World, c: Client, position: Vector2, sessions: seq<Session>)
    requires Terrain.ValidWorld(world) && world.width >= 1 && world.height >= 1
    requires Visibility.SizedFor(c.tracker, world.width, world.height)
    ensures var (c', outs) := UpdatePos(world, c, position, sessions);
      |outs| == 3 <==> c'.tracker.discovered != c.tracker.discovered
  {
    var u := Visibility.Recalculate(c.tracker, world.tiles, world.width, world.height, position);
    Visibility.MessageIffChunkRevealed(c.tracker, world.tiles, world.width, world.height, position);
    Visibility.RevealedIffGrows(c.tracker, world.tiles, world.width, world.height, position);
  }

  /** Moving again to the same position sends no chunk message and leaves
      the tracker as it was; only the biome and the position go out. */
  lemma RepeatedMoveSendsNoChunk(world: Terrain.World, c: Client, position: Vector2, sessions: seq<Session>)
    requires Terrain.ValidWorld(world) && world.width >= 1 && world.height >= 1
    ensures var (c1, _) := UpdatePos(world, c, position, sessions);
            var (c2, outs2) := UpdatePos(world, c1, position, sessions);
            |outs2| == 2 && c2.tracker == c1.tracker
  {
    Visibility.RecalculateIdempotent(c.tracker, world.tiles, world.width, world.height, position);
  }

  /** A connection's client after `UpdatePos` has run for each position of
      a path in turn. */
  function Walk(world: Terrain.World, c: Client, path: seq<Vector2>, sessions: seq<Session>): Client
    requires Terrain.ValidWorld(world) && world.width >= 1 && world.height >= 1
    decreases |path|
  {
    if path == [] then c else Walk(world, UpdatePos(world, c, path[0], sessions).0, path[1..], sessions)
  }

  /** The tracker after a connection's moves is the one `RevealAlong`
      computes for the same path. */
  lemma {:induction false} WalkFollowsRevealAlong(world: Terrain.World, c: Client, path: seq<Vector2>,
                                                  sessions: seq<Session>)
    requires Terrain.ValidWorld(world) && world.width >= 1 && world.height >= 1
    ensures Walk(world, c, path, sessions).tracker == Visibility.RevealAlong(c.tracker, path).0
    decreases |path|
  {
    if path != [] {
      var c1 := UpdatePos(world, c, path[0], sessions).0;
      Visibility.RevealAlongIsRecalculate(c.tracker, world.tiles, world.width, world.height, path);
      assert c1.tracker == Visibility.Recalculate(c.tracker, world.tiles, world.width, world.height, path[0]).tracker;
      WalkFollowsRevealAlong(world, c1, path[1..], sessions);
    }
  }

  /** Over the moves of one connection, no chunk is revealed twice, and the
      tracker gains exactly the in-range chunks the moves touch that the
      connection had not discovered. */
  lemma WalkRevealsEachChunkOnce(world: Terrain.World, c: Client, path: seq<Vector2>, sessions: seq<Session>)
    requires Terrain.ValidWorld(world) && world.width >= 1 && world.height >= 1
    ensures var (t', revealed) := Visibility.RevealAlong(c.tracker, path);
      && Walk(world, c, path, sessions).tracker == t'
      && Visibility.Distinct(revealed)
      && (forall ch :: ch in t'.discovered <==> ch in c.tracker.discovered || ch in revealed)
      && (forall ch :: ch in revealed <==>
            ch !in c.tracker.discovered && Visibility.InRange(c.tracker, ch) && Visibility.Touched(path, ch))
  {
    WalkFollowsRevealAlong(world, c, path, sessions);
    Visibility.RevealedOncePerChunk(c.tracker, path);
  }

  /** `OnOpen`: register the player, size its tracker to the world, send it
      the world data first, announce it to the others, then run `UpdatePos`
      from the spawn position. */
  method OnOpen(server: Server, sessions: seq<Session>, sid: int)
    returns (server': Server, c: Client, outs: seq<Outgoing>)
    requires ValidServer(server)
    ensures ValidServer(server') && server'.world == server.world
    ensures c.sid == sid && c.playerId == server.registry.playerLength
    ensures c.playerId !in server.registry.players
    ensures server'.registry.players.Keys == server.registry.players.Keys + {c.playerId}
    ensures forall id :: id in server.registry.players ==> server'.registry.players[id] == server.registry.players[id]
    ensures server'.registry.playerLength == server.registry.playerLength + 1
    ensures Visibility.SizedFor(c.tracker, server.world.width, server.world.height)
    ensures 4 <= |outs| <= 5
    ensures outs[0].recipients == [sid] && outs[0].payload.Msg?
    ensures var m := outs[0].payload.message;
      && Greets(server.world, server'.registry, c.playerId, m)
      && outs[|outs| - 1].payload == Msg(Messages.NewSetPlayerPositionMessage(m.spawnPosition, c.playerId))
      && (forall ch :: ch in c.tracker.discovered <==>
            ch in Visibility.Block(Visibility.ChunkOf(m.spawnPosition)) && Visibility.InRange(c.tracker, ch))
    ensures outs[1] == Outgoing(Broadcast(sessions, sid), Msg(Messages.NewPlayerJoinedMessage(c.playerId)))
    ensures outs[|outs| - 1].recipients == Broadcast(sessions, sid)
    ensures forall i :: 1 <= i < |outs| ==> outs[i].payload.Msg? && !outs[i].payload.message.WorldDataMessage?
  {
    var id, worldData, registry := Welcome(server);
    var tracker := Visibility.Open(server.world.width, server.world.height);
    var joined := Outgoing(Broadcast(sessions, sid), Msg(Messages.NewPlayerJoinedMessage(id)));
    var updated := UpdatePos(server.world, Client(sid, id, tracker, 0), worldData.spawnPosition, sessions);
    server' := Server(server.world, registry);
    c := updated.0;
    var moveOuts := updated.1;
    assert 2 <= |moveOuts| <= 3;
    assert moveOuts[|moveOuts| - 1] ==
      Outgoing(Broadcast(sessions, sid), Msg(Messages.NewSetPlayerPositionMessage(worldData.spawnPosition, id)));
    outs := OpenReplies(ToSelf(c, worldData), joined, moveOuts);
  }

  /** The sends of a connection, in order: the world data, the join
      announcement, then the sends of the first move. */
  function OpenReplies(worldOut: Outgoing, joined: Outgoing, moveOuts: seq<Outgoing>): (outs: seq<Outgoing>)
    ensures |outs| == |moveOuts| + 2
    ensures outs[0] == worldOut && outs[1] == joined
    ensures forall i :: 2 <= i < |outs| ==> outs[i] == moveOuts[i - 2]
    ensures moveOuts != [] ==> outs[|outs| - 1] == moveOuts[|moveOuts| - 1]
  {
    [worldOut, joined] + moveOuts
  }

  /** `m` is the world-data message a player `id` gets on connecting to
      `world`, with `registry` the registry after the player's spawn
      position is stored: it carries the world's height map and size, the
      spawn cell, the player's own id and the full roster. */
  ghost predicate Greets(world: Terrain.World, registry: Registry.Registry, id: int, m: Messages.Message)
    requires Terrain.ValidWorld(world) && world.width >= 1
  {
    && Messages.WellTagged(m) && m.WorldDataMessage? && m.localId == id
    && m.heightMap == world.heightMap
    && m.size == Vector2(world.width, world.height)
    && Messages.SpawnsAt(world, m.spawnPosition)
    && id in registry.players && registry.players[id] == Some(m.spawnPosition)
    && Messages.ListsRegistry(m.players, registry.players)
  }

  /** The registration half of `OnOpen`: `AddPlayer`, then the world-data
      message, which stores the spawn position as the new player's. */
  method Welcome(server: Server) returns (id: int, worldData: Messages.Message, registry: Registry.Registry)
    requires ValidServer(server)
    ensures Registry.Valid(registry)
    ensures id == server.registry.playerLength && id !in server.registry.players
    ensures registry.players.Keys == server.registry.players.Keys + {id}
    ensures forall k :: k in server.registry.players ==> registry.players[k] == server.registry.players[k]
    ensures registry.playerLength == server.registry.playerLength + 1
    ensures Greets(server.world, registry, id, worldData)
  {
    var added := Registry.AddPlayer(server.registry);
    id := added.1;
    worldData, registry := Messages.NewWorldDataMessage(server.world, added.0, id);
  }

  /** The edit of a `SetTile` request: the addressed cell gets the new tile
      (or none) and nothing else in the world changes. An address outside
      the grid makes the source's array store throw before anything is
      written or broadcast; that is the `None` result here. */
  function ApplyTileEdit(world: Terrain.World, x: int, y: int, tile: Option<TileSpec>): (res: Option<Terrain.World>)
    requires Terrain.ValidWorld(world)
    ensures res.Some? <==> InGrid(x, y, world.width, world.height)
    ensures res.Some? ==>
      var w' := res.value;
      && Terrain.ValidWorld(w')
      && w'.width == world.width && w'.height == world.height
      && w'.biomeMap == world.biomeMap && w'.heightMap == world.heightMap
      && w'.tiles[x][y].Some? == tile.Some?
      && w'.tiles[x][y] == (if tile.Some? then Some(NewTile(tile.value.tileIndex, (x, y), tile.value.itemDrop)) else None)
      && (tile.Some? ==> w'.tiles[x][y].value.tileIndex == tile.value.tileIndex
                         && w'.tiles[x][y].value.itemDrop == tile.value.itemDrop
                         && CellOf(w'.tiles[x][y].value) == (x, y))
      && (forall i, j :: InGrid(i, j, world.width, world.height) && (i, j) != (x, y) ==>
            w'.tiles[i][j] == world.tiles[i][j])
  {
    if InGrid(x, y, world.width, world.height) then
      var cell := match tile
                  case None => None
                  case Some(spec) => Some(NewTile(spec.tileIndex, (x, y), spec.itemDrop));
      Some(world.(tiles := SetCell(world.tiles, world.width, world.height, x, y, cell)))
    else None
  }

  /** Clearing a cell and reading it back gives no tile, and a second read
      of any other cell gives what the world held before the edit. */
  lemma ClearedCellReadsBackEmpty(world: Terrain.World, x: int, y: int, i: int, j: int)
    requires Terrain.ValidWorld(world) && InGrid(x, y, world.width, world.height)
    requires InGrid(i, j, world.width, world.height) && (i, j) != (x, y)
    ensures var res := ApplyTileEdit(world, x, y, None);
      && res.Some? && res.value.tiles[x][y] == None
      && res.value.tiles[i][j] == world.tiles[i][j]
  {
  }

  /** Two edits of one cell: the world ends up as if only the second had
      been made. */
  lemma LastEditWins(world: Terrain.World, x: int, y: int, first: Option<TileSpec>, second: Option<TileSpec>)
    requires Terrain.ValidWorld(world) && InGrid(x, y, world.width, world.height)
    ensures var once := ApplyTileEdit(world, x, y, first);
      && once.Some?
      && ApplyTileEdit(once.value, x, y, second) == ApplyTileEdit(world, x, y, second)
  {
    var once := ApplyTileEdit(world, x, y, first);
    var cell := match second
                case None => None
                case Some(spec) => Some(NewTile(spec.tileIndex, (x, y), spec.itemDrop));
    var firstCell := match first
                     case None => None
                     case Some(spec) => Some(NewTile(spec.tileIndex, (x, y), spec.itemDrop));
    SetCellLastWins(world.tiles, world.width, world.height, x, y, firstCell, cell);
  }

  /** `OnMessage`: `SetPosition` moves the player and runs `UpdatePos`;
      `SetTile` edits the world and passes the request on to every other
      open session; any other type is ignored. */
  function OnMessage(server: Server, c: Client, sessions: seq<Session>, request: Request)
    : (res: (Server, Client, seq<Outgoing>))
    requires ValidServer(server)
    ensures var (server', c', outs) := res;
      && ValidServer(server')
      && c'.sid == c.sid && c'.playerId == c.playerId
      && server'.registry.players.Keys == server.registry.players.Keys
      && server'.registry.playerLength == server.registry.playerLength
      && (!request.SetPositionRequest? ==> c' == c)
      && (!request.SetTileRequest? ==> server'.world == server.world)
      && (request.SetPositionRequest? ==>
            && 2 <= |outs| <= 3
            && (c.playerId in server.registry.players ==>
                  server'.registry.players[c.playerId] == Some(request.position))
            && (forall id :: id in server.registry.players && id != c.playerId ==>
                  server'.registry.players[id] == server.registry.players[id])
            && outs[|outs| - 1].payload == Msg(Messages.NewSetPlayerPositionMessage(request.position, c.playerId))
            && (c', outs) == UpdatePos(server.world, c, request.position, sessions))
      && (request.SetTileRequest? ==>
            && server'.registry == server.registry
            && var edited := ApplyTileEdit(server.world, request.x, request.y, request.tile);
               if edited.Some? then
                 server'.world == edited.value && outs == [Outgoing(Broadcast(sessions, c.sid), Relay(request))]
               else
                 server'.world == server.world && outs == [])
      && (request.OtherRequest? ==> server' == server && outs == [])
  {
    match request
    case SetPositionRequest(position) =>
      var registry := Registry.SetPosition(server.registry, c.playerId, position);
      var updated := UpdatePos(server.world, c, position, sessions);
      (Server(server.world, registry), updated.0, updated.1)
    case SetTileRequest(x, y, tile) =>
      var edited := ApplyTileEdit(server.world, x, y, tile);
      if edited.Some? then
        (Server(edited.value, server.registry), c, [Outgoing(Broadcast(sessions, c.sid), Relay(request))])
      else
        (server, c, [])
    case OtherRequest(_) => (server, c, [])
  }

  /** `OnClose`: only the closing player leaves the registry, the counter is
      kept so the id is never issued again, and the others are told. */
  function OnClose(server: Server, c: Client, sessions: seq<Session>): (res: (Server, seq<Outgoing>))
    requires ValidServer(server)
    ensures var (server', outs) := res;
      && ValidServer(server') && server'.world == server.world
      && server'.registry.players.Keys == server.registry.players.Keys - {c.playerId}
      && (forall id :: id in server'.registry.players ==> server'.registry.players[id] == server.registry.players[id])
      && server'.registry.playerLength == server.registry.playerLength
      && outs == [Outgoing(Broadcast(sessions, c.sid), Msg(Messages.NewPlayerLeftMessage(c.playerId)))]
  {
    (Server(server.world, Registry.RemovePlayer(server.registry, c.playerId)),
     [Outgoing(Broadcast(sessions, c.sid), Msg(Messages.NewPlayerLeftMessage(c.playerId)))])
  }
}

=== FILE: terrain.dfy ===
/** Terrain generation (`GenerateWorld`, `GenerateCaves`, `GenerateOre` and
    `BiomeAtPos` in World.cs).

    The Perlin-noise samples and the `System.Random` draws are inputs:
    - `heightMaxes[x]`: the surface row of column x (the rounded maximum of
      the "flats" and "mountains" noise curves);
    - `depthEdges[x]`: the per-column jitter of the cave and ore depth;
    - `biomeEdges[y]`: the per-row horizontal jitter of the biome lookup;
    - `bands[x]`: the biome id per column from `Biomes.GenerateBiomes`;
    - the seed grids of the cave map and of the five ore maps.

    The cave and ore maps are stored with the same `[x][y]` layout as the
    world, and are consulted with row `y - height / 2` for a world row `y`
    in the lower half. The ore maps have `height / 2` rows, so the lookup is
    only in bounds when `height` is even; the model asks for that. */
module Terrain {
  import opened Grids
  import opened Tiles
  import Automaton
  import Biomes

  const CaveStepCount := 20
  const CaveDeathLimit := 4
  const CaveBirthLimit := 5
  const CaveStartingChance: real := 0.525

  /** The cave seed grid: full world size, with the random draws
      (`NextDouble() < 0.525`) in the upper `height / 2` rows and every
      other cell closed. */
  function SeedCaves(open: seq<seq<bool>>, w: nat, h: nat): (g: seq<seq<bool>>)
    requires IsGrid(open, w, h / 2)
    ensures IsGrid(g, w, h)
    ensures forall x, y :: InGrid(x, y, w, h) && y >= h / 2 ==> !g[x][y]
    ensures forall x, y :: InGrid(x, y, w, h / 2) ==> g[x][y] == open[x][y]
  {
    seq(w, x requires 0 <= x < w =>
      seq(h, y requires 0 <= y < h => y < h / 2 && open[x][y]))
  }

  /** `GenerateCaves`: twenty relaxation passes with death limit 4, birth
      limit 5, and out-of-bounds neighbours counted as alive. */
  function CaveMap(open: seq<seq<bool>>, w: nat, h: nat): (g: seq<seq<bool>>)
    requires IsGrid(open, w, h / 2)
    ensures IsGrid(g, w, h)
  {
    Automaton.Relax(SeedCaves(open, w, h), w, h, CaveStepCount, CaveDeathLimit, CaveBirthLimit, true)
  }

  predicate OreSeedsFit(seeds: seq<seq<seq<bool>>>, w: nat, h: nat)
  {
    |seeds| == |Ores| && forall i :: 0 <= i < |seeds| ==> IsGrid(seeds[i], w, h / 2)
  }

  /** `GenerateOre`: each ore's seed grid (`NextDouble() < initialChance`)
      relaxed once with that ore's limits, edges not counted. */
  function OreMaps(seeds: seq<seq<seq<bool>>>, w: nat, h: nat): (maps: seq<seq<seq<bool>>>)
    requires OreSeedsFit(seeds, w, h)
    ensures OreSeedsFit(maps, w, h)
    ensures forall i :: 0 <= i < |Ores| ==>
      maps[i] == Automaton.Step(seeds[i], w, h / 2, Ores[i].deathCount, Ores[i].birthCount, false)
  {
    seq(|Ores|, i requires 0 <= i < |Ores| =>
      Automaton.Step(seeds[i], w, h / 2, Ores[i].deathCount, Ores[i].birthCount, false))
  }

  /** The column of the band table a cell's biome is read from: the cell's
      column shifted by the row's jitter, clamped into the world. */
  function BiomeIndex(x: int, biomeEdge: int, w: int): (i: int)
    requires w >= 1
    ensures 0 <= i < w
    ensures 0 <= x + biomeEdge < w ==> i == x + biomeEdge
    ensures x + biomeEdge < 0 ==> i == 0
    ensures x + biomeEdge >= w ==> i == w - 1
  {
    Clamp(x + biomeEdge, 0, w - 1)
  }

  /** The cave test of a cell: in the lower half, closed in the cave map,
      and more than `20 + depthEdge` rows below the surface. */
  predicate CaveCarves(caveMap: seq<seq<bool>>, w: nat, h: nat, x: int, y: int, heightMax: int, depthEdge: int)
    requires IsGrid(caveMap, w, h) && InGrid(x, y, w, h)
  {
    y > h / 2 && !caveMap[x][y - h / 2] && y > heightMax + 20 + depthEdge
  }

  /** The ore test of one ore map at a cell: in the lower half, set in the
      map, and more than `30 + depthEdge` rows below the surface. */
  predicate OreClaims(oreMap: seq<seq<bool>>, w: nat, h: nat, x: int, y: int, heightMax: int, depthEdge: int)
    requires h % 2 == 0
    requires IsGrid(oreMap, w, h / 2) && InGrid(x, y, w, h)
  {
    y > h / 2 && oreMap[x][y - h / 2] && y > heightMax + 30 + depthEdge
  }

  /** Which of the ore maps claim the cell, in ore order. */
  function Claims(oreMaps: seq<seq<seq<bool>>>, w: nat, h: nat, x: int, y: int, heightMax: int, depthEdge: int)
    : (c: seq<bool>)
    requires h % 2 == 0 && OreSeedsFit(oreMaps, w, h) && InGrid(x, y, w, h)
    ensures |c| == |Ores|
    ensures forall i :: 0 <= i < |c| ==> c[i] == OreClaims(oreMaps[i], w, h, x, y, heightMax, depthEdge)
  {
    seq(|Ores|, i requires 0 <= i < |Ores| => OreClaims(oreMaps[i], w, h, x, y, heightMax, depthEdge))
  }

  /** The highest index whose flag is set: the ore whose tile survives the
      server's loop, in which every matching ore overwrites the cell. */
  function LastClaim(claims: seq<bool>): (r: Option<nat>)
    ensures r.None? <==> forall i :: 0 <= i < |claims| ==> !claims[i]
    ensures r.Some? ==> r.value < |claims| && claims[r.value]
    ensures r.Some? ==> forall j :: r.value < j < |claims| ==> !claims[j]
  {
    if claims == [] then None
    else if claims[|claims| - 1] then Some(|claims| - 1)
    else LastClaim(claims[..|claims| - 1])
  }

  /** The tile an ore places at `(x, y)`. */
  function OreTile(i: nat, x: int, y: int): Tile
    requires i < |Ores|
  {
    NewTile(Ores[i].tileIndex, (x, y), Ores[i].itemIndex)
  }

  /** The per-cell rule of `GenerateWorld`. */
  function PlaceCell(caveMap: seq<seq<bool>>, oreMaps: seq<seq<seq<bool>>>, w: nat, h: nat,
                     x: int, y: int, heightMax: int, depthEdge: int, biome: int): (cell: Option<Tile>)
    requires h % 2 == 0 && InGrid(x, y, w, h)
    requires IsGrid(caveMap, w, h) && OreSeedsFit(oreMaps, w, h)
    // Above the surface: air.
    ensures y < heightMax ==> cell.None?
    // Carved out as a cave: air.
    ensures y >= heightMax && CaveCarves(caveMap, w, h, x, y, heightMax, depthEdge) ==> cell.None?
    // Otherwise solid, with the highest-index claiming ore winning over the biome tile.
    ensures y >= heightMax && !CaveCarves(caveMap, w, h, x, y, heightMax, depthEdge) ==>
      cell.Some? &&
      (forall i :: 0 <= i < |Ores| && OreClaims(oreMaps[i], w, h, x, y, heightMax, depthEdge)
                   && (forall j :: i < j < |Ores| ==> !OreClaims(oreMaps[j], w, h, x, y, heightMax, depthEdge))
                   ==> cell.value == OreTile(i, x, y)) &&
      ((forall i :: 0 <= i < |Ores| ==> !OreClaims(oreMaps[i], w, h, x, y, heightMax, depthEdge))
                   ==> cell.value == GetBiomeTile(biome, (x, y), heightMax))
    ensures cell.Some? ==> CellOf(cell.value) == (x, y)
  {
    if y < heightMax then None
    else if CaveCarves(caveMap, w, h, x, y, heightMax, depthEdge) then None
    else
      var claims := Claims(oreMaps, w, h, x, y, heightMax, depthEdge);
      match LastClaim(claims)
      case Some(i) => Some(OreTile(i, x, y))
      case None => Some(GetBiomeTile(biome, (x, y), heightMax))
  }

  /** The generated world: the tile grid (`None` is air), the biome map and
      the per-column surface rows. */
  datatype World = World(width: nat, height: nat, tiles: seq<seq<Option<Tile>>>,
                         biomeMap: seq<seq<int>>, heightMap: seq<int>)

  predicate ValidWorld(world: World)
  {
    && IsGrid(world.tiles, world.width, world.height)
    && IsGrid(world.biomeMap, world.width, world.height)
    && |world.heightMap| == world.width
  }

  /** The generator's noise- and draw-derived inputs fit a `w` by `h` world. */
  predicate InputsFit(w: nat, h: nat, heightMaxes: seq<int>, depthEdges: seq<int>, biomeEdges: seq<int>,
                      bands: seq<int>, caveMap: seq<seq<bool>>, oreMaps: seq<seq<seq<bool>>>)
  {
    && h % 2 == 0
    && |heightMaxes| == w && |depthEdges| == w && |biomeEdges| == h && |bands| == w
    && IsGrid(caveMap, w, h) && OreSeedsFit(oreMaps, w, h)
  }

  /** `GenerateWorld` from its noise samples, band table, cave map and ore
      maps. */
  function GenerateWorld(w: nat, h: nat, heightMaxes: seq<int>, depthEdges: seq<int>, biomeEdges: seq<int>,
                         bands: seq<int>, caveMap: seq<seq<bool>>, oreMaps: seq<seq<seq<bool>>>): (world: World)
    requires InputsFit(w, h, heightMaxes, depthEdges, biomeEdges, bands, caveMap, oreMaps)
    ensures ValidWorld(world) && world.width == w && world.height == h
    ensures world.heightMap == heightMaxes
    ensures forall x, y :: InGrid(x, y, w, h) ==>
      world.biomeMap[x][y] == bands[BiomeIndex(x, biomeEdges[y], w)]
    ensures forall x, y :: InGrid(x, y, w, h) && y < heightMaxes[x] ==> world.tiles[x][y].None?
    ensures forall x, y :: InGrid(x, y, w, h) ==>
      world.tiles[x][y] == PlaceCell(caveMap, oreMaps, w, h, x, y, heightMaxes[x], depthEdges[x], world.biomeMap[x][y])
    ensures (forall x :: 0 <= x < w ==> 0 <= bands[x] < 4) ==>
      forall x, y :: InGrid(x, y, w, h) ==> 0 <= world.biomeMap[x][y] < 4
  {
    var biomeMap := seq(w, x requires 0 <= x < w =>
      seq(h, y requires 0 <= y < h => bands[BiomeIndex(x, biomeEdges[y], w)]));
    var tiles := seq(w, x requires 0 <= x < w =>
      seq(h, y requires 0 <= y < h =>
        PlaceCell(caveMap, oreMaps, w, h, x, y, heightMaxes[x], depthEdges[x], biomeMap[x][y])));
    World(w, h, tiles, biomeMap, heightMaxes)
  }

  /** The tile coordinate of a pixel coordinate, clamped into `[0, n)`. */
  function ClampedTile(p: int, n: int): (i: int)
    requires n >= 1
    ensures 0 <= i < n
    ensures 0 <= p < TileSize * n ==> TileSize * i <= p < TileSize * (i + 1)
    ensures p < 0 ==> i == 0
    ensures p >= TileSize * n ==> i == n - 1
  {
    Clamp(p / TileSize, 0, n - 1)
  }

  /** `BiomeAtPos`: the biome under a pixel position. Inside the world it is
      the biome of the tile the position lies in; outside, the nearest edge
      cell is read, so the lookup never leaves the map. */
  function BiomeAtPos(world: World, position: Vector2): (biome: int)
    requires ValidWorld(world) && world.width >= 1 && world.height >= 1
    ensures 0 <= position.x < TileSize * world.width && 0 <= position.y < TileSize * world.height ==>
      biome == world.biomeMap[position.x / TileSize][position.y / TileSize]
    ensures exists i, j :: InGrid(i, j, world.width, world.height) && biome == world.biomeMap[i][j]
    ensures biome == world.biomeMap[ClampedTile(position.x, world.width)][ClampedTile(position.y, world.height)]
  {
    var i, j := ClampedTile(position.x, world.width), ClampedTile(position.y, world.height);
    assert InGrid(i, j, world.width, world.height);
    world.biomeMap[i][j]
  }

  /** The whole of `GenerateWorld`, from the band draws and the cave and ore
      seed grids: bands first, then caves and ores, then the per-cell rule. */
  method GenerateFromDraws(w: nat, h: nat, heightMaxes: seq<int>, depthEdges: seq<int>, biomeEdges: seq<int>,
                           draws: seq<Biomes.BandDraw>, caveSeed: seq<seq<bool>>, oreSeeds: seq<seq<seq<bool>>>)
    returns (world: World)
    requires h % 2 == 0 && |heightMaxes| == w && |depthEdges| == w && |biomeEdges| == h
    requires Biomes.ValidDraws(draws) && w <= Biomes.MinBandWidth * |draws|
    requires IsGrid(caveSeed, w, h / 2) && OreSeedsFit(oreSeeds, w, h)
    ensures ValidWorld(world) && world.width == w && world.height == h
    ensures world.heightMap == heightMaxes
    ensures forall x, y :: InGrid(x, y, w, h) ==> 0 <= world.biomeMap[x][y] < Biomes.BiomeCount
    ensures forall x, y :: InGrid(x, y, w, h) && y < heightMaxes[x] ==> world.tiles[x][y].None?
    ensures forall x, y :: InGrid(x, y, w, h) && y >= heightMaxes[x] ==> 
      (world.tiles[x][y].None? <==> CaveCarves(CaveMap(caveSeed, w, h), w, h, x, y, heightMaxes[x], depthEdges[x]))
    // Each cell's biome is the id of the drawn band covering its shifted column.
    ensures forall x, y :: InGrid(x, y, w, h) ==>
      exists k :: 0 <= k < |draws| && Biomes.InBand(draws, k, BiomeIndex(x, biomeEdges[y], w))
                  && world.biomeMap[x][y] == draws[k].id
    // Each cell follows the per-cell rule over the relaxed cave and ore maps.
    ensures forall x, y :: InGrid(x, y, w, h) ==>
      world.tiles[x][y] == PlaceCell(CaveMap(caveSeed, w, h), OreMaps(oreSeeds, w, h), w, h, x, y,
                                     heightMaxes[x], depthEdges[x], world.biomeMap[x][y])
  {
    var bands, drawn := Biomes.GenerateBiomes(w, draws);
    forall x | 0 <= x < w
      ensures exists k :: 0 <= k < |draws| && Biomes.InBand(draws, k, x) && bands[x] == draws[k].id
    {
      Biomes.ColumnHasUniqueBand(draws, drawn, w, x);
    }
    world := GenerateWorld(w, h, heightMaxes, depthEdges, biomeEdges, bands,
                           CaveMap(caveSeed, w, h), OreMaps(oreSeeds, w, h));
  }
}

=== FILE: tiles.dfy ===
/** Tiles, the ore table and the biome material table of World.cs. */
module Tiles {

  /** Width and height of one tile in pixels. */
  const TileSize := 40

  /** A placed tile: material, pixel position of its top-left corner and the
      item it drops. The server keeps `size` too, but it is the constant
      `(TileSize, TileSize)` and is never sent, so it is not a field here. */
  datatype Tile = Tile(tileIndex: int, position: (int, int), itemDrop: int)

  /** The tile cell a tile's pixel position lies in. */
  function CellOf(t: Tile): (int, int)
  {
    (t.position.0 / TileSize, t.position.1 / TileSize)
  }

  /** The `Tile` constructor: it is given tile coordinates and stores pixel
      coordinates, so the cell it was built for can be read back. */
  function NewTile(tileId: int, pos: (int, int), dropId: int): (t: Tile)
    ensures t.tileIndex == tileId && t.itemDrop == dropId
    ensures CellOf(t) == pos
    ensures t.position.0 % TileSize == 0 && t.position.1 % TileSize == 0
  {
    Tile(tileId, (pos.0 * TileSize, pos.1 * TileSize), dropId)
  }

  /** An ore kind: automaton limits for its deposit map, the seeding
      probability, and the tile and item it places. */
  datatype Ore = Ore(deathCount: int, birthCount: int, initialChance: real, tileIndex: int, itemIndex: int)

  /** The five ore kinds, in the server's priority order (a later entry
      overwrites an earlier one at the same cell). The server's constructor
      takes the birth count first and the death count second. */
  const Ores: seq<Ore> := [
    Ore(0, 1, 0.005, 8, 16),
    Ore(0, 1, 0.0075, 10, 18),
    Ore(2, 2, 0.015, 9, 17),
    Ore(2, 2, 0.0125, 11, 19),
    Ore(2, 2, 0.005, 12, 20)
  ]

  /** The three depth bands of a column below its surface row. */
  datatype Layer = Surface | Subsurface | Deep

  /** The layer a row at or below the surface row `heightMax` falls in:
      the surface row itself, the next twenty rows, or anything deeper. */
  function LayerOf(row: int, heightMax: int): (l: Layer)
    ensures l == Surface <==> row == heightMax
    ensures l == Deep <==> row != heightMax && row > heightMax + 20
  {
    if row == heightMax then Surface
    else if row > heightMax + 20 then Deep
    else Subsurface
  }

  /** `GetBiomeTile`: the tile a biome places at `pos` in a column whose
      surface row is `heightMax`. Biomes 0 and 3 have a deep filler; biomes 1
      and 2 use their subsurface tile at every depth; an unknown biome gets
      material 0 with no drop. */
  function GetBiomeTile(biome: int, pos: (int, int), heightMax: int): (t: Tile)
    ensures CellOf(t) == pos
    ensures t.position == (TileSize * pos.0, TileSize * pos.1)
    ensures (biome == 0 || biome == 3) ==>
      match LayerOf(pos.1, heightMax)
      case Surface => t.tileIndex == (if biome == 0 then 0 else 6) && t.itemDrop == 0
      case Subsurface => t.tileIndex == 1 && t.itemDrop == 0
      case Deep => t.tileIndex == 7 && t.itemDrop == 3
    ensures biome == 1 ==> t.itemDrop == 1 && t.tileIndex == (if pos.1 == heightMax then 4 else 5)
    ensures biome == 2 ==> t.itemDrop == 2 && t.tileIndex == (if pos.1 == heightMax then 2 else 3)
    ensures !(0 <= biome < 4) ==> t.tileIndex == 0 && t.itemDrop == 0
  {
    if biome == 0 then
      if pos.1 == heightMax then NewTile(0, pos, 0)
      else if pos.1 > heightMax + 20 then NewTile(7, pos, 3)
      else NewTile(1, pos, 0)
    else if biome == 1 then
      if pos.1 == heightMax then NewTile(4, pos, 1)
      else NewTile(5, pos, 1)
    else if biome == 2 then
      if pos.1 == heightMax then NewTile(2, pos, 2)
      else NewTile(3, pos, 2)
    else if biome == 3 then
      if pos.1 == heightMax then NewTile(6, pos, 0)
      else if pos.1 > heightMax + 20 then NewTile(7, pos, 3)
      else NewTile(1, pos, 0)
    else NewTile(0, pos, 0)
  }

  /** Biomes 0 and 3 differ only in their surface material. */
  lemma BiomesZeroAndThreeShareUnderground(row: int, heightMax: int, x: int)
    requires row != heightMax
    ensures GetBiomeTile(0, (x, row), heightMax) == GetBiomeTile(3, (x, row), heightMax)
  {
  }

  /** The four biomes' surface materials are pairwise distinct, and no
      surface material is reused below the surface. */
  lemma SurfaceMaterialsDistinct(x: int, heightMax: int, b1: int, b2: int, row: int)
    requires 0 <= b1 < 4 && 0 <= b2 < 4 && b1 != b2
    ensures GetBiomeTile(b1, (x, heightMax), heightMax).tileIndex
            != GetBiomeTile(b2, (x, heightMax), heightMax).tileIndex
    ensures row != heightMax ==>
            GetBiomeTile(b1, (x, heightMax), heightMax).tileIndex
            != GetBiomeTile(b2, (x, row), heightMax).tileIndex
  {
  }
}

=== FILE: visibility.dfy ===
/** The per-connection chunk tracker (`RecalculateChunks` and the chunk grid
    sizing in `OnOpen`, Program.cs).

    The world is cut into 50x50-tile chunks. Each connection remembers which
    chunks it has been sent; the server's boolean grid `chunksDiscovered` is
    modelled as the set of its true cells. On every position update the
    tracker looks at the 3x3 block of chunks around the player, marks the
    in-range undiscovered ones discovered, and collects their tiles. */
module Visibility {
  import opened Grids
  import opened Tiles
  import Messages

  /** Chunk side length in tiles. */
  const ChunkSize := 50

  /** Chunk side length in pixels. */
  const ChunkPixels := TileSize * ChunkSize

  datatype Tracker = Tracker(chunksWidth: nat, chunksHeight: nat, discovered: set<(int, int)>)

  /** `Math.Ceiling(n / 50.0)`: the fewest chunks that cover `n` tiles. */
  function ChunkCount(n: nat): (c: nat)
    ensures ChunkSize * c >= n
    ensures c > 0 ==> ChunkSize * (c - 1) < n
  {
    (n + ChunkSize - 1) / ChunkSize
  }

  /** The tracker a connection starts with: sized to cover the world,
      nothing discovered. */
  function Open(w: nat, h: nat): (t: Tracker)
    ensures ChunkSize * t.chunksWidth >= w && (t.chunksWidth > 0 ==> ChunkSize * (t.chunksWidth - 1) < w)
    ensures ChunkSize * t.chunksHeight >= h && (t.chunksHeight > 0 ==> ChunkSize * (t.chunksHeight - 1) < h)
    ensures t.discovered == {}
  {
    Tracker(ChunkCount(w), ChunkCount(h), {})
  }

  /** The tracker belongs to a `w` by `h` world. */
  predicate SizedFor(t: Tracker, w: nat, h: nat)
  {
    t.chunksWidth == ChunkCount(w) && t.chunksHeight == ChunkCount(h)
  }

  predicate InRange(t: Tracker, c: (int, int))
  {
    0 <= c.0 < t.chunksWidth && 0 <= c.1 < t.chunksHeight
  }

  /** `Math.Floor(p / 40 / 50)` per axis: the chunk a pixel position is in. */
  function ChunkOf(p: Vector2): (c: (int, int))
    ensures ChunkPixels * c.0 <= p.x < ChunkPixels * (c.0 + 1)
    ensures ChunkPixels * c.1 <= p.y < ChunkPixels * (c.1 + 1)
  {
    (p.x / ChunkPixels, p.y / ChunkPixels)
  }

  /** The 3x3 block around a chunk, in the server's scan order. */
  function Block(c: (int, int)): (b: seq<(int, int)>)
    ensures |b| == 9 && Distinct(b)
  {
    [(c.0 - 1, c.1 - 1), (c.0, c.1 - 1), (c.0 + 1, c.1 - 1),
     (c.0 - 1, c.1), (c.0, c.1), (c.0 + 1, c.1),
     (c.0 - 1, c.1 + 1), (c.0, c.1 + 1), (c.0 + 1, c.1 + 1)]
  }

  /** The block holds exactly the chunks at most one step away on each axis. */
  lemma BlockIsNeighbourhood(c: (int, int), d: (int, int))
    ensures d in Block(c) <==> c.0 - 1 <= d.0 <= c.0 + 1 && c.1 - 1 <= d.1 <= c.1 + 1
  {
    var b := Block(c);
    if c.0 - 1 <= d.0 <= c.0 + 1 && c.1 - 1 <= d.1 <= c.1 + 1 {
      var i := 3 * (d.1 - c.1 + 1) + (d.0 - c.0 + 1);
      assert b[i] == d;
    }
  }

  predicate Distinct<T(==)>(s: seq<T>)
  {
    forall i, j :: 0 <= i < j < |s| ==> s[i] != s[j]
  }

  /** The scan of the candidate chunks: skip those out of range or already
      discovered, mark the others and list them in scan order. */
  function RevealChunks(t: Tracker, candidates: seq<(int, int)>): (res: (Tracker, seq<(int, int)>))
    decreases |candidates|
  {
    if candidates == [] then (t, [])
    else
      var c := candidates[0];
      if !InRange(t, c) || c in t.discovered then RevealChunks(t, candidates[1..])
      else
        var rest := RevealChunks(t.(discovered := t.discovered + {c}), candidates[1..]);
        (rest.0, [c] + rest.1)
  }

  /** The scan keeps the tracker's size; it reveals exactly the in-range,
      undiscovered candidates, each once; and the tracker gains exactly
      those. */
  lemma {:induction false} RevealChunksFacts(t: Tracker, candidates: seq<(int, int)>)
    ensures var res := RevealChunks(t, candidates);
      && res.0.chunksWidth == t.chunksWidth && res.0.chunksHeight == t.chunksHeight
      && (forall c :: c in res.1 <==> c in candidates && InRange(t, c) && c !in t.discovered)
      && (forall c :: c in res.0.discovered <==> c in t.discovered || c in res.1)
      && Distinct(res.1)
    decreases |candidates|
  {
    if candidates != [] {
      var c := candidates[0];
      if !InRange(t, c) || c in t.discovered {
        RevealChunksFacts(t, candidates[1..]);
      } else {
        RevealChunksFacts(t.(discovered := t.discovered + {c}), candidates[1..]);
      }
    }
  }

  /** The plain filter: candidates in range and not yet discovered. */
  function Fresh(t: Tracker, candidates: seq<(int, int)>): seq<(int, int)>
  {
    if candidates == [] then []
    else (if InRange(t, candidates[0]) && candidates[0] !in t.discovered then [candidates[0]] else [])
         + Fresh(t, candidates[1..])
  }

  lemma {:induction false} FreshIgnoresAbsent(t: Tracker, candidates: seq<(int, int)>, c: (int, int))
    requires c !in candidates
    ensures Fresh(t.(discovered := t.discovered + {c}), candidates) == Fresh(t, candidates)
    decreases |candidates|
  {
    if candidates != [] {
      FreshIgnoresAbsent(t, candidates[1..], c);
    }
  }

  /** With distinct candidates, marking during the scan never hides a later
      candidate, so the revealed chunks are exactly the fresh candidates, in
      scan order. */
  lemma {:induction false} RevealIsFilter(t: Tracker, candidates: seq<(int, int)>)
    requires Distinct(candidates)
    ensures RevealChunks(t, candidates).1 == Fresh(t, candidates)
    decreases |candidates|
  {
    if candidates != [] {
      var c := candidates[0];
      var tail := candidates[1..];
      assert Distinct(tail);
      if InRange(t, c) && c !in t.discovered {
        RevealIsFilter(t.(discovered := t.discovered + {c}), tail);
        FreshIgnoresAbsent(t, tail, c);
      } else {
        RevealIsFilter(t, tail);
      }
    }
  }

  /** Tiles of columns `[x0, x1)`, rows `[y0, y1)`: x outer, y inner. */
  function Footprint<T>(g: seq<seq<T>>, w: nat, h: nat, x0: int, x1: int, y0: int, y1: int): seq<T>
    requires IsGrid(g, w, h) && 0 <= x0 <= x1 <= w && 0 <= y0 <= y1 <= h
    decreases x1 - x0
  {
    if x1 == x0 then [] else Footprint(g, w, h, x0, x1 - 1, y0, y1) + g[x1 - 1][y0..y1]
  }

  lemma MulMonotone(a: int, b: int, c: int)
    requires a <= b && c >= 0
    ensures a * c <= b * c
  {
  }

  lemma {:induction false} FootprintLength<T>(g: seq<seq<T>>, w: nat, h: nat, x0: int, x1: int, y0: int, y1: int)
    requires IsGrid(g, w, h) && 0 <= x0 <= x1 <= w && 0 <= y0 <= y1 <= h
    ensures |Footprint(g, w, h, x0, x1, y0, y1)| == (x1 - x0) * (y1 - y0)
    decreases x1 - x0
  {
    if x1 > x0 {
      FootprintLength(g, w, h, x0, x1 - 1, y0, y1);
      assert (x1 - x0) * (y1 - y0) == (x1 - 1 - x0) * (y1 - y0) + (y1 - y0);
    }
  }

  /** Entry `i * (y1 - y0) + j` of the footprint is the cell `(x0 + i, y0 + j)`:
      the footprint is the clipped rectangle flattened column by column. */
  lemma {:induction false} FootprintIndex<T>(g: seq<seq<T>>, w: nat, h: nat, x0: int, x1: int, y0: int, y1: int,
                                             i: int, j: int)
    requires IsGrid(g, w, h) && 0 <= x0 <= x1 <= w && 0 <= y0 <= y1 <= h
    requires 0 <= i < x1 - x0 && 0 <= j < y1 - y0
    ensures 0 <= i * (y1 - y0) + j < |Footprint(g, w, h, x0, x1, y0, y1)|
    ensures Footprint(g, w, h, x0, x1, y0, y1)[i * (y1 - y0) + j] == g[x0 + i][y0 + j]
    decreases x1 - x0
  {
    var ch := y1 - y0;
    FootprintLength(g, w, h, x0, x1, y0, y1);
    FootprintLength(g, w, h, x0, x1 - 1, y0, y1);
    MulMonotone(0, i, ch);
    if i < x1 - 1 - x0 {
      MulMonotone(i + 1, x1 - 1 - x0, ch);
      assert i * ch + j < (i + 1) * ch;
      FootprintIndex(g, w, h, x0, x1 - 1, y0, y1, i, j);
    } else {
      assert i * ch == (x1 - 1 - x0) * ch;
    }
  }

  /** The part of `[start, start + 50)` inside `[0, n)`, as a half-open range. */
  function Span(start: int, n: nat): (r: (int, int))
    ensures 0 <= r.0 <= r.1 <= n
    ensures r.0 < r.1 ==> r.0 == Max(start, 0) && r.1 == Min(start + ChunkSize, n)
    ensures r.0 == r.1 <==> Max(start, 0) >= Min(start + ChunkSize, n)
  {
    var lo := Clamp(start, 0, n);
    (lo, Max(lo, Min(n, start + ChunkSize)))
  }

  /** The tiles of chunk `c` clipped to the world, empty cells included. */
  function ChunkTiles(g: seq<seq<Option<Tile>>>, w: nat, h: nat, c: (int, int)): seq<Option<Tile>>
    requires IsGrid(g, w, h)
  {
    var xs := Span(ChunkSize * c.0, w);
    var ys := Span(ChunkSize * c.1, h);
    Footprint(g, w, h, xs.0, xs.1, ys.0, ys.1)
  }

  /** The tiles of the listed chunks, chunk after chunk. */
  function Gather(g: seq<seq<Option<Tile>>>, w: nat, h: nat, chunks: seq<(int, int)>): seq<Option<Tile>>
    requires IsGrid(g, w, h)
  {
    if chunks == [] then [] else ChunkTiles(g, w, h, chunks[0]) + Gather(g, w, h, chunks[1..])
  }

  lemma {:induction false} GatherAppend(g: seq<seq<Option<Tile>>>, w: nat, h: nat, chunks: seq<(int, int)>, c: (int, int))
    requires IsGrid(g, w, h)
    ensures Gather(g, w, h, chunks + [c]) == Gather(g, w, h, chunks) + ChunkTiles(g, w, h, c)
    decreases |chunks|
  {
    if chunks == [] {
      assert [c][1..] == [];
    } else {
      assert (chunks + [c])[1..] == chunks[1..] + [c];
      GatherAppend(g, w, h, chunks[1..], c);
    }
  }

  /** The outcome of one position update: the new tracker, the chunks
      revealed, their tiles, and the chunk message if there is one. */
  datatype Update = Update(tracker: Tracker, revealed: seq<(int, int)>, tiles: seq<Option<Tile>>,
                           message: Option<Messages.Message>)

  /** `RecalculateChunks` as a function of the tracker, the world grid and
      the player's pixel position. */
  function Recalculate(t: Tracker, g: seq<seq<Option<Tile>>>, w: nat, h: nat, position: Vector2): (u: Update)
    requires IsGrid(g, w, h)
    ensures u.tracker.chunksWidth == t.chunksWidth && u.tracker.chunksHeight == t.chunksHeight
    ensures t.discovered <= u.tracker.discovered
    ensures forall c :: c in u.tracker.discovered <==>
      c in t.discovered || (c in Block(ChunkOf(position)) && InRange(t, c))
    ensures u.revealed == Fresh(t, Block(ChunkOf(position)))
    ensures u.tiles == Gather(g, w, h, u.revealed)
    ensures u.message.Some? <==> |u.tiles| > 0
    ensures u.message.Some? ==> u.message.value == Messages.NewChunkMessage(u.tiles, position)
  {
    var block := Block(ChunkOf(position));
    var r := RevealChunks(t, block);
    RevealChunksFacts(t, block);
    RevealIsFilter(t, block);
    var tiles := Gather(g, w, h, r.1);
    Update(r.0, r.1, tiles, if |tiles| != 0 then Some(Messages.NewChunkMessage(tiles, position)) else None)
  }

  /** Repeating an update from the same position reveals nothing, sends
      nothing and leaves the tracker as it was. */
  lemma RecalculateIdempotent(t: Tracker, g: seq<seq<Option<Tile>>>, w: nat, h: nat, position: Vector2)
    requires IsGrid(g, w, h)
    ensures var u1 := Recalculate(t, g, w, h, position);
            var u2 := Recalculate(u1.tracker, g, w, h, position);
            u2.revealed == [] && u2.tiles == [] && u2.message.None? && u2.tracker == u1.tracker
  {
    var block := Block(ChunkOf(position));
    var u1 := Recalculate(t, g, w, h, position);
    var r2 := RevealChunks(u1.tracker, block);
    RevealChunksFacts(u1.tracker, block);
    assert forall c :: c !in r2.1;
    FirstIsMember(r2.1);
    assert r2.0.discovered == u1.tracker.discovered;
  }

  lemma FirstIsMember<T>(s: seq<T>)
    ensures |s| > 0 ==> s[0] in s
  {
  }

  /** In a tracker sized for the world, every in-range chunk has at least
      one tile, so a message is sent exactly when some chunk is revealed. */
  lemma MessageIffChunkRevealed(t: Tracker, g: seq<seq<Option<Tile>>>, w: nat, h: nat, position: Vector2)
    requires IsGrid(g, w, h) && SizedFor(t, w, h)
    ensures var u := Recalculate(t, g, w, h, position);
            u.message.Some? <==> u.revealed != []
  {
    var u := Recalculate(t, g, w, h, position);
    if u.revealed != [] {
      var c := u.revealed[0];
      RevealChunksFacts(t, Block(ChunkOf(position)));
      assert c in RevealChunks(t, Block(ChunkOf(position))).1;
      var xs := Span(ChunkSize * c.0, w);
      var ys := Span(ChunkSize * c.1, h);
      assert xs.0 <= ChunkSize * c.0 < xs.1;
      assert ys.0 <= ChunkSize * c.1 < ys.1;
      FootprintLength(g, w, h, xs.0, xs.1, ys.0, ys.1);
      MulMonotone(1, xs.1 - xs.0, ys.1 - ys.0);
    }
  }

  /** An update reveals some chunk exactly when the tracker gains one. */
  lemma RevealedIffGrows(t: Tracker, g: seq<seq<Option<Tile>>>, w: nat, h: nat, position: Vector2)
    requires IsGrid(g, w, h)
    ensures var u := Recalculate(t, g, w, h, position);
            u.revealed != [] <==> u.tracker.discovered != t.discovered
  {
    var block := Block(ChunkOf(position));
    var u := Recalculate(t, g, w, h, position);
    RevealChunksFacts(t, block);
    RevealIsFilter(t, block);
    if u.revealed != [] {
      FirstIsMember(u.revealed);
      assert u.revealed[0] in u.tracker.discovered && u.revealed[0] !in t.discovered;
    }
    if u.tracker.discovered != t.discovered {
      var c :| c in u.tracker.discovered && c !in t.discovered;
      assert c in u.revealed;
    }
  }

  /** The chunks revealed along a path of positions, in order. */
  function RevealAlong(t: Tracker, path: seq<Vector2>): (res: (Tracker, seq<(int, int)>))
    decreases |path|
  {
    if path == [] then (t, [])
    else
      var first := RevealChunks(t, Block(ChunkOf(path[0])));
      var rest := RevealAlong(first.0, path[1..]);
      (rest.0, first.1 + rest.1)
  }

  /** Some position of the path has `c` in its 3x3 block. */
  predicate Touched(path: seq<Vector2>, c: (int, int))
  {
    exists k :: 0 <= k < |path| && c in Block(ChunkOf(path[k]))
  }

  /** Along any path, each chunk is revealed at most once; the chunks
      revealed are exactly the in-range, not previously discovered chunks
      the path touches; and they are exactly what the tracker gains. */
  lemma {:induction false} RevealedOncePerChunk(t: Tracker, path: seq<Vector2>)
    ensures var (t', revealed) := RevealAlong(t, path);
      && Distinct(revealed)
      && (forall c :: c in revealed <==> c !in t.discovered && InRange(t, c) && Touched(path, c))
      && (forall c :: c in t'.discovered <==> c in t.discovered || c in revealed)
      && t'.chunksWidth == t.chunksWidth && t'.chunksHeight == t.chunksHeight
    decreases |path|
  {
    if path != [] {
      var first := RevealChunks(t, Block(ChunkOf(path[0])));
      var rest := RevealAlong(first.0, path[1..]);
      RevealChunksFacts(t, Block(ChunkOf(path[0])));
      RevealedOncePerChunk(first.0, path[1..]);
      var all := first.1 + rest.1;
      forall i, j | 0 <= i < j < |all|
        ensures all[i] != all[j]
      {
        if j < |first.1| {
        } else if i >= |first.1| {
          assert all[i] == rest.1[i - |first.1|] && all[j] == rest.1[j - |first.1|];
        } else {
          assert all[i] in first.1 && all[j] == rest.1[j - |first.1|];
          assert all[j] in rest.1;
        }
      }
      forall c
        ensures c in all <==> c !in t.discovered && InRange(t, c) && Touched(path, c)
      {
        if Touched(path[1..], c) {
          var k :| 0 <= k < |path[1..]| && c in Block(ChunkOf(path[1..][k]));
          assert c in Block(ChunkOf(path[k + 1]));
        }
        if Touched(path, c) && c !in Block(ChunkOf(path[0])) {
          var k :| 0 <= k < |path| && c in Block(ChunkOf(path[k]));
          assert k != 0;
          assert c in Block(ChunkOf(path[1..][k - 1]));
        }
        if c in Block(ChunkOf(path[0])) {
          assert Touched(path, c);
        }
      }
    }
  }

  /** `RevealAlong` is successive `Recalculate` calls: the first position's
      update gives the tracker the rest of the path starts from and the
      chunks revealed first. */
  lemma RevealAlongIsRecalculate(t: Tracker, g: seq<seq<Option<Tile>>>, w: nat, h: nat, path: seq<Vector2>)
    requires IsGrid(g, w, h) && path != []
    ensures var u := Recalculate(t, g, w, h, path[0]);
            var rest := RevealAlong(u.tracker, path[1..]);
            RevealAlong(t, path) == (rest.0, u.revealed + rest.1)
  {
    var block := Block(ChunkOf(path[0]));
    assert Recalculate(t, g, w, h, path[0]).tracker == RevealChunks(t, block).0;
    assert Recalculate(t, g, w, h, path[0]).revealed == RevealChunks(t, block).1;
  }

  /** `RecalculateChunks` as the server runs it: the nine candidates scanned
      in order, then a message only when tiles were collected. */
  method RecalculateChunks(t: Tracker, g: seq<seq<Option<Tile>>>, w: nat, h: nat, position: Vector2)
    returns (t': Tracker, tiles: seq<Option<Tile>>, message: Option<Messages.Message>)
    requires IsGrid(g, w, h)
    ensures var u := Recalculate(t, g, w, h, position);
            t' == u.tracker && tiles == u.tiles && message == u.message
  {
    var index := ChunkOf(position);
    t', tiles := ScanChunks(t, g, w, h, Block(index));
    if |tiles| != 0 {
      message := Some(Messages.NewChunkMessage(tiles, position));
    } else {
      message := None;
    }
  }

  /** The loop of `RecalculateChunks`: each candidate is skipped when out of
      range or discovered, otherwise marked and its tiles appended. */
  method ScanChunks(t: Tracker, g: seq<seq<Option<Tile>>>, w: nat, h: nat, chunks: seq<(int, int)>)
    returns (t': Tracker, tiles: seq<Option<Tile>>)
    requires IsGrid(g, w, h)
    ensures t' == RevealChunks(t, chunks).0
    ensures tiles == Gather(g, w, h, RevealChunks(t, chunks).1)
  {
    t' := t;
    tiles := [];
    ghost var revealed: seq<(int, int)> := [];
    var i := 0;
    assert chunks[0..] == chunks;
    assert [] + RevealChunks(t, chunks).1 == RevealChunks(t, chunks).1;
    while i < |chunks|
      invariant 0 <= i <= |chunks|
      invariant RevealChunks(t', chunks[i..]).0 == RevealChunks(t, chunks).0
      invariant revealed + RevealChunks(t', chunks[i..]).1 == RevealChunks(t, chunks).1
      invariant tiles == Gather(g, w, h, revealed)
    {
      var chunk := chunks[i];
      assert chunks[i..][0] == chunk && chunks[i..][1..] == chunks[i + 1..];
      if !InRange(t', chunk) || chunk in t'.discovered {
        i := i + 1;
        continue;
      }
      ghost var rest := RevealChunks(t'.(discovered := t'.discovered + {chunk}), chunks[i + 1..]);
      assert RevealChunks(t', chunks[i..]) == (rest.0, [chunk] + rest.1);
      assert revealed + ([chunk] + rest.1) == (revealed + [chunk]) + rest.1;
      t' := t'.(discovered := t'.discovered + {chunk});
      var chunkTiles := CollectChunkTiles(g, w, h, chunk);
      GatherAppend(g, w, h, revealed, chunk);
      tiles := tiles + chunkTiles;
      revealed := revealed + [chunk];
      i := i + 1;
    }
    assert chunks[i..] == [];
    assert revealed + [] == revealed;
  }

  /** The tile scan of one chunk as the server runs it: columns then rows of
      the 50x50 footprint, skipping cells outside the world. */
  method CollectChunkTiles(g: seq<seq<Option<Tile>>>, w: nat, h: nat, c: (int, int))
    returns (tiles: seq<Option<Tile>>)
    requires IsGrid(g, w, h)
    ensures tiles == ChunkTiles(g, w, h, c)
  {
    var ox, oy := ChunkSize * c.0, ChunkSize * c.1;
    ghost var xs, ys := Span(ox, w), Span(oy, h);
    tiles := [];
    var x := ox;
    while x < ox + ChunkSize
      invariant ox <= x <= ox + ChunkSize
      invariant tiles == Footprint(g, w, h, xs.0, Max(xs.0, Min(w, x)), ys.0, ys.1)
    {
      if 0 <= x < w {
        var column := CollectColumn(g[x], h, oy);
        tiles := tiles + column;
      }
      x := x + 1;
    }
  }

  /** The cells of one world column that lie in the chunk row starting at
      tile row `oy`, clipped to the world. */
  method CollectColumn(column: seq<Option<Tile>>, h: nat, oy: int) returns (cells: seq<Option<Tile>>)
    requires |column| == h
    ensures var ys := Span(oy, h); cells == column[ys.0..ys.1]
  {
    ghost var ys := Span(oy, h);
    cells := [];
    var y := oy;
    while y < oy + ChunkSize
      invariant oy <= y <= oy + ChunkSize
      invariant cells == column[ys.0..Max(ys.0, Min(h, y))]
    {
      if 0 <= y < h {
        assert column[ys.0..y + 1] == column[ys.0..y] + [column[y]];
        cells := cells + [column[y]];
      }
      y := y + 1;
    }
  }
}
